=== FILE: README.md ===
# Watt-Watch dashboard core in Dafny

Watt-Watch is a campus energy dashboard. This project models its page logic
as pure Dafny functions over immutable data and proves what the pages
promise. Every page reads from one static catalog of rooms, alerts,
computer-lab telemetry, default rules and audit entries.

- `wrappers.dfy`: `Option` and `Result`.
- `values.dfy`: JavaScript values for the dynamic rules objects
  (`undefined`, booleans, integers, `NaN`, strings, nested objects).
  - It defines truthiness and property lookup.
  - It also defines an integer parser (`ParseDecimal`) and printer
    (`ToDecimal`) with their round trip.
- `entities.dfy`: rooms, appliances, KPIs, alerts, lab telemetry, audit entries.
- `mock_data.dfy`: the catalog as constants, and consistency lemmas about it.
- `heatmap.dfy`: the heatmap's occupancy-first classifier and its summary counts.
- `room_detail.dfy`: the room page.
  - the efficiency ratio with its zero-usage guard
  - the ratio classifier, badge colour and text
  - lookup of the room named in the URL
  - the silhouette clamp and the monitoring card
- `computer_labs.dfy`: the lab filter and fold, with its reference sums, and the lab cards.
- `rules.dfy`: the rules editor as a state machine over a rules object and a "saved" flag.
- `configuration.dfy`: the configuration page's record handlers.
- `auth.dfy`: the session, with login, logout, the storage mirror and the `useAuth` guard.
- `audit_logs.dfy`, `dashboard.dfy`, `alerts.dfy`: the lookup and banding tables of those pages.
- `classifiers.dfy`: where the two room classifiers disagree.

Design choices:

- Energy figures are exact `real` numbers.
- A JavaScript object whose shape the code does not fix is a `map<string, Value>`.
  - Reading an absent property gives `Undefined`.
  - Writing one adds it, as a spread update does.
- The nested handlers replace the parent with a spread copy of it
  (`Values.Spread`): an object's fields, a string's characters under their
  index keys, nothing from other primitives or from `undefined`. Spreading
  never throws, so the nested change always succeeds. The nested toggle and
  the hidden-waste switch also read a property of the parent, which throws
  when the parent is `undefined`; the model returns `None` there.

Two details of the code that the model keeps:

- The hidden-waste panel follows the lab's stored `hiddenWaste` flag and does
  not compare `cpusActive` with `monitorsOn`. On the catalog the two agree
  (`ComputerLabs.CatalogFlagMatchesCounts`).
- The room page divides by `energyUsageToday || 1`, so only a usage of exactly
  0 becomes 1; a usage in (0, 1) is used as it is.

## Model

| member | source | states |
|---|---|---|
| Values.ParseDecimal | src/pages/Rules.jsx:70 | text parses to an integer exactly when it is an optional minus sign followed by at least one digit |
| Values.ParseToDecimal | src/pages/RoomDetail.jsx:25 | parsing the printed form of any integer (as in a `/room/${id}` link) gives that integer back |
| Values.ParseRejectsWord | src/pages/Rules.jsx:201 | text starting with a letter, such as "auto" or "manual", is not a number, so it is stored as text |
| Values.Spread | src/pages/Rules.jsx:78-80 | spreading an object copies its fields, a string gives one entry per character under its printed index, and any other primitive gives nothing |
| Values.Prop | src/pages/Rules.jsx:61 | reading a property fails exactly on `undefined`; an object answers its field, a string its length, other primitives `undefined` |
| Values.PropAgreesWithSpread | src/pages/Rules.jsx:59-61 | away from a string's length, reading a property of the parent gives what reading it from the parent's spread copy gives |
| Heatmap.HeatmapStatus | src/pages/Heatmap.jsx:31-40 | waste exactly when the room is empty and uses more than 1.5 kWh; otherwise review exactly when savings exceed 2; otherwise efficient |
| Heatmap.CellOf | src/pages/Heatmap.jsx:98-122 | a cell shows the room's class, with label and colour taken from the class alone; the "Empty" warning shows exactly for an empty room classed waste |
| Heatmap.LabelsAndColoursDistinguish | src/pages/Heatmap.jsx:31-40 | the three labels are pairwise different, and so are the three colours |
| Heatmap.EmptyHungryRoomIsWaste | src/pages/Heatmap.jsx:33-35 | an empty room using more than 1.5 kWh is waste whatever its potential savings |
| Heatmap.StrictBoundaries | src/pages/Heatmap.jsx:33-36 | usage of exactly 1.5 is not waste and savings of exactly 2 are not review |
| Heatmap.CountStatus | src/pages/Heatmap.jsx:43-45 | a class count never exceeds the number of rooms |
| Heatmap.CountStatusAppend | src/pages/Heatmap.jsx:43-45 | the count over two runs of rooms is the sum of their counts, so each room is counted on its own |
| Heatmap.CountStatusSingle | src/pages/Heatmap.jsx:43-45 | one room counts 1 in the class the heatmap gives it and 0 in every other class |
| Heatmap.StatsPartitionRooms | src/pages/Heatmap.jsx:42-46 | the efficient, review and waste counts add up to the number of rooms |
| Heatmap.CatalogStats | src/pages/Heatmap.jsx:42-46 | on the catalog the heatmap shows 8 efficient, 1 review and 2 waste rooms |
| RoomDetail.Efficiency | src/pages/RoomDetail.jsx:71 | efficiency times usage is usage minus savings; zero usage divides by 1, giving 1 minus savings |
| RoomDetail.RatioStatus | src/pages/RoomDetail.jsx:65-69 | efficient exactly above 0.7, review exactly in (0.4, 0.7], waste exactly at or below 0.4 |
| RoomDetail.RatioStatusMonotone | src/pages/RoomDetail.jsx:65-69 | a higher efficiency never gets a worse class |
| RoomDetail.BadgeAgrees | src/pages/RoomDetail.jsx:65-89 | the badge colour and badge text always name the same class |
| RoomDetail.EfficiencyInUnitInterval | src/pages/RoomDetail.jsx:71 | with positive usage and savings between 0 and usage, efficiency lies in [0, 1] |
| RoomDetail.OverSavingIsNegativeWaste | src/pages/RoomDetail.jsx:71 | savings above usage give a negative efficiency, which is not clamped and is classed waste |
| RoomDetail.FindRoom | src/pages/RoomDetail.jsx:25 | a room is found exactly when the parsed id is some room's id; the room found is the first room with that id |
| RoomDetail.FindRoomUnique | src/pages/RoomDetail.jsx:25 | with distinct ids, looking up a room's id yields that very room |
| RoomDetail.PageFor | src/pages/RoomDetail.jsx:25-63 | the not-found page appears exactly when no room matches the parsed URL parameter; otherwise the page shows the first room with the parsed id, as `find` returns it |
| RoomDetail.AlertLinksOpenTheirRoom | src/pages/Alerts.jsx:135 | every catalog alert's "view room" link opens the detail page of the room it names |
| RoomDetail.CatalogEfficiencyInUnitInterval | src/data/mockData.js:2-171 | every catalog room's efficiency lies in [0, 1] |
| RoomDetail.Silhouettes | src/pages/RoomDetail.jsx:236 | the silhouette count is in 1..5 and equals the occupancy when that is in 1..5 |
| RoomDetail.MonitoringCardFor | src/pages/RoomDetail.jsx:215-282 | the ghost-view card shows exactly for camera rooms; otherwise the card names the room's monitoring method |
| RoomDetail.OffApplianceShownOn | src/pages/RoomDetail.jsx:155-174 | as written, the badge tests the truthiness of the whole entry object, so every appliance reads "ON", which is wrong exactly for the appliances that are off |
| RoomDetail.ApplianceBadgesAsWritten | src/pages/RoomDetail.jsx:155-174 | the list as the page renders it: one entry per appliance, in order, with the key capitalised, and every badge "ON" |
| RoomDetail.ApplianceBadge | src/pages/RoomDetail.jsx:174 | corrected (see Findings): an appliance is labelled "ON" exactly when it is on and "OFF" exactly when it is off |
| RoomDetail.ApplianceBadges | src/pages/RoomDetail.jsx:155-174 | corrected (see Findings): one entry per appliance, in order, with the key capitalised and a badge showing the appliance's own on/off state |
| RoomDetail.CorrectionMatters | src/pages/RoomDetail.jsx:155-174 | the rendered list and the corrected list differ exactly when some appliance is off |
| RoomDetail.Capitalise | src/pages/RoomDetail.jsx:164 | the shown name has the key's length, its first character upper-cased and the rest unchanged |
| RoomDetail.CapitaliseIdempotent | src/pages/RoomDetail.jsx:164 | capitalising a shown name again changes nothing |
| ComputerLabs.Labs | src/pages/ComputerLabs.jsx:16 | a room is kept exactly when it is in the catalog and its type is "Computer Lab" |
| ComputerLabs.LabsAppend | src/pages/ComputerLabs.jsx:16 | the filter keeps order and multiplicity: filtering a concatenation concatenates the filtered parts, and one room is kept exactly when it is a lab |
| ComputerLabs.FoldSnoc | src/pages/ComputerLabs.jsx:17-27 | the stats of a list are the stats of its prefix plus the last lab's contribution |
| ComputerLabs.FoldIsSum | src/pages/ComputerLabs.jsx:17-27 | the reduce adds the desktop sums and the waste-lab count over the labs that have data to its start value |
| ComputerLabs.WasteLabsBounded | src/pages/ComputerLabs.jsx:23 | the waste-lab count never exceeds the number of labs |
| ComputerLabs.LabWithoutDataAddsNothing | src/pages/ComputerLabs.jsx:19-20 | a lab without telemetry leaves the totals unchanged |
| ComputerLabs.ComputeLabStats | src/pages/ComputerLabs.jsx:16-27 | the loop over the filtered labs computes the reference sums, with at most one waste lab per lab |
| ComputerLabs.CatalogLabs | src/pages/ComputerLabs.jsx:16 | the catalog has exactly two computer labs, in catalog order |
| ComputerLabs.CatalogLabStats | src/pages/ComputerLabs.jsx:17-27 | on the catalog the labs have 75 desktops, 55 on, and 2 waste labs |
| ComputerLabs.HiddenWastePanel | src/pages/ComputerLabs.jsx:158-163 | the panel shows exactly when the flag is set, and its count plus the monitors on is the number of active CPUs |
| ComputerLabs.HiddenWasteText | src/pages/ComputerLabs.jsx:163 | the panel text starts with a printed number that parses back to the active CPUs minus the monitors on |
| ComputerLabs.LabCardFor | src/pages/ComputerLabs.jsx:117-166 | a card renders exactly for a lab with telemetry; it carries the lab's name and telemetry, its badge reads "Waste Detected" for a stored waste status and "Efficient" otherwise, and its hidden-waste panel is the one the telemetry gives |
| ComputerLabs.CatalogFlagMatchesCounts | src/data/mockData.js:255-276 | in the catalog a lab is flagged exactly when more CPUs are active than monitors are on |
| Rules.Coerce | src/pages/Rules.jsx:70 | numeric text becomes its integer; any other text is kept as the same string |
| Rules.Toggle | src/pages/Rules.jsx:48-54 | a boolean field is negated and any other value is kept; no other field changes, and saved is cleared |
| Rules.ToggleTwice | src/pages/Rules.jsx:51 | toggling a present field twice restores the rules |
| Rules.ToggleNonBoolean | src/pages/Rules.jsx:51 | toggling a non-boolean field leaves the rules unchanged |
| Rules.NestedToggle | src/pages/Rules.jsx:56-65 | fails exactly on an `undefined` parent; otherwise the parent becomes its spread copy with one key negated by truthiness, other top-level fields are unchanged, and saved is cleared; on an object parent only that key changes |
| Rules.NestedToggleTwice | src/pages/Rules.jsx:61 | toggling a nested boolean twice restores the rules |
| Rules.Change | src/pages/Rules.jsx:67-73 | only the target field changes, to the coerced input, and saved is cleared |
| Rules.NestedChange | src/pages/Rules.jsx:75-84 | never fails; the parent becomes an object holding its spread copy with the key set to the coerced input, other top-level fields are unchanged; an object parent keeps its other keys, and an `undefined`, boolean, number or `NaN` parent becomes the one-key object |
| Rules.Save | src/pages/Rules.jsx:86-89 | save sets the flag and keeps the rules |
| Rules.Reset | src/pages/Rules.jsx:91-94 | reset yields the default rules with saved cleared, from any state |
| Rules.ResetIdempotent | src/pages/Rules.jsx:91-94 | resetting twice is resetting once, and both are the initial page |
| Rules.HiddenWasteSwitch | src/pages/Rules.jsx:221-223 | fails exactly when the settings are `undefined`; otherwise the switch flips whether the threshold compares above zero (a positive threshold becomes 0, any other becomes 10) and changes no other setting of the spread settings; the saved flag is cleared |
| Rules.HiddenWasteSwitchTwice | src/pages/Rules.jsx:221-223 | from an active switch, two presses return to an active switch with a threshold of exactly 10 |
| Rules.AutoModeSwitch | src/pages/Rules.jsx:200-201 | the switch alternates the mode between "auto" and "manual", leaves every other rule unchanged, and clears the saved flag |
| Rules.AutoModeSwitchTwice | src/pages/Rules.jsx:200-201 | from either "auto" or "manual", two presses restore the rules |
| Rules.InitialWellShaped | src/data/mockData.js:307-318 | the default rules have a mode of "auto" or "manual" and lab settings holding a numeric threshold and two boolean flags |
| Rules.ActionsPreserveShape | src/pages/Rules.jsx:139-289 | every control of the page keeps a well-shaped page well shaped, and only the save button sets the saved flag |
| Configuration.Toggle | src/pages/Configuration.jsx:27-32 | the named field becomes the boolean negation of its truthiness and no other field changes |
| Configuration.ToggleTwice | src/pages/Configuration.jsx:30 | toggling a boolean field twice is the identity |
| Configuration.TogglesCommute | src/pages/Configuration.jsx:27-32 | toggles of different fields commute |
| Configuration.ThresholdChange | src/pages/Configuration.jsx:34-39 | only the threshold changes, to the parsed integer, or to NaN for text that is not a number |
| Configuration.ThresholdFromPrintedNumber | src/pages/Configuration.jsx:37 | entering the printed form of an integer stores that integer |
| Configuration.SetNightMode | src/pages/Configuration.jsx:187-196 | editing the night-mode start or end changes only that property, to the entered text |
| Configuration.NightModeSettersCommute | src/pages/Configuration.jsx:186-196 | setting the start and the end are independent of order, and setting the end keeps the start just entered |
| Auth.StoredUser | src/context/AuthContext.jsx:6-13 | the store yields a user exactly when its entry holds an encoded user, and yields that user; a missing or unparsable entry yields none |
| Auth.Sync | src/context/AuthContext.jsx:18-24 | the effect writes the user under the storage key, or removes the key when there is no user; other keys are untouched |
| Auth.StoredUserAfterSync | src/context/AuthContext.jsx:18-24 | reading the store after the effect gives back the current user |
| Auth.Start | src/context/AuthContext.jsx:16-24 | a session starts with the stored user, and the store mirrors it |
| Auth.Login | src/context/AuthContext.jsx:26-32 | login succeeds exactly for the admin credentials and then signs in "Admin User"; a failure changes nothing and reports "Invalid credentials" |
| Auth.Logout | src/context/AuthContext.jsx:34-36 | after logout there is no user and no stored entry |
| Auth.LogoutIdempotent | src/context/AuthContext.jsx:34-36 | logging out twice is logging out once |
| Auth.RunMirrors | src/context/AuthContext.jsx:16-36 | after any sequence of logins and logouts, the store still mirrors the session's user |
| Auth.UseAuth | src/context/AuthContext.jsx:45-50 | the hook yields the context inside a provider and fails with the provider error outside one |
| AuditLogs.ConfidenceBand | src/pages/AuditLogs.jsx:52-56 | high exactly at 95 and above, medium exactly in [85, 95), low exactly below 85 (the page defines `getConfidenceColor` but never calls it; the band drives the bar colour instead) |
| AuditLogs.BandMonotone | src/pages/AuditLogs.jsx:52-56 | a higher confidence never gets a lower band |
| AuditLogs.BarColourMatchesBand | src/pages/AuditLogs.jsx:146 | the inline bar colour is the colour of the band, and of no other band |
| AuditLogs.CellFor | src/pages/AuditLogs.jsx:140-153 | null confidence shows a dash; a number shows a bar of that width in its band's colour |
| AuditLogs.ActionIcon | src/pages/AuditLogs.jsx:58-64 | the first keyword found, in the order "reduction", "Alert", "verified", "activated", picks the icon; none of them gives the default |
| AuditLogs.TableFor | src/pages/AuditLogs.jsx:79-153 | the entry count equals the number of rows and of logs; each row keeps its log's room and action, shows the icon its action selects, and shows the confidence cell its confidence gives (a dash exactly for a null confidence) |
| AuditLogs.CatalogTable | src/data/mockData.js:321-376 | the catalog table has six entries and only the fifth has no confidence bar |
| Dashboard.StatusColour | src/pages/Dashboard.jsx:82-89 | efficient is green, waste red, review yellow, and any other status grey |
| Dashboard.StatusLabel | src/pages/Dashboard.jsx:91-98 | waste reads "Empty but Active", and any unknown status reads "Unknown" |
| Dashboard.ColourAndLabelAgree | src/pages/Dashboard.jsx:82-98 | a status gets the grey colour exactly when it gets the "Unknown" label; the known statuses get distinct colours and labels |
| Dashboard.ApplianceIcon | src/pages/Dashboard.jsx:110-123 | each key of the icon map gets its own icon (lights the bulb, ac the thermometer, fans the fan, tv the screen, fume_hood the wind icon; projector, desktops, computers and equipment the monitor), and exactly the unknown keys get the default icon |
| Dashboard.ActiveAppliances | src/pages/Dashboard.jsx:252-253 | an appliance is listed exactly when it belongs to the room and is on |
| Dashboard.ActiveAppliancesAppend | src/pages/Dashboard.jsx:252-253 | the active list keeps entry order and multiplicity: a concatenation gives the parts' lists in turn, and one appliance is listed exactly when it is on |
| Dashboard.AllOnListsAll | src/pages/Dashboard.jsx:252-253 | when every appliance is on, all are listed in order |
| Dashboard.OccupancyText | src/pages/Dashboard.jsx:241 | the card reads "Empty" exactly when occupancy is not positive, and otherwise the count of people |
| Alerts.TotalWasteAppend | src/pages/Alerts.jsx:86 | the waste total of two lists joined is the sum of their totals |
| Alerts.SumWaste | src/pages/Alerts.jsx:86 | the left-to-right reduce gives the reference total; it is 0 for no alerts and never negative for non-negative wastes |
| Alerts.SummaryOf | src/pages/Alerts.jsx:82-144 | the header counts every alert and totals their waste, and the empty panel shows exactly for an empty list |
| Alerts.CatalogSummary | src/data/mockData.js:199-252 | on the catalog there are four alerts wasting 11.9 kWh, and the empty panel is hidden |
| Alerts.SeverityStyle | src/pages/Alerts.jsx:35-46 | a severity other than high, medium or low gets the default style, and exactly those do |
| Alerts.SeverityStylesDistinct | src/pages/Alerts.jsx:35-46 | high, medium and low get three different styles |
| Alerts.SeverityIcon | src/pages/Alerts.jsx:48-55 | high and low share the triangle, medium alone has the circle, and any other value the default icon |
| Alerts.FormatDuration | src/pages/Alerts.jsx:57-59 | the duration is shown unchanged |
| MockData.SavingsWithinUsage | src/data/mockData.js:2-171 | every room's savings lie between 0 and its usage |
| MockData.RoomIdsDistinct | src/data/mockData.js:4-157 | room ids are 1 to 11 in order, and pairwise distinct |
| MockData.TotalRoomsMatchesCatalog | src/data/mockData.js:175 | the KPI room total equals the number of rooms |
| MockData.AlertsResolve | src/data/mockData.js:199-252 | every alert's room id resolves to a room with the alert's room name |
| MockData.LabDataKeyedByLabs | src/data/mockData.js:255-276 | the lab telemetry is keyed by exactly the names of the computer-lab rooms |
| MockData.LabCountsOrdered | src/data/mockData.js:255-276 | each lab has monitors on ≤ active CPUs ≤ desktops, and desktops on ≤ desktops |
| MockData.DefaultRulesWithinSliders | src/data/mockData.js:307-318 | each numeric default lies within the range of its slider on the rules page |
| Classifiers.RatioEdges | src/pages/RoomDetail.jsx:65-71 | efficiency exactly 0.4 is waste, and zero usage gives efficiency 1, which is efficient |
| Classifiers.EmptyRoomDisagreement | src/pages/Heatmap.jsx:31-40 | an empty room at 2 kWh with little to save is heatmap waste but ratio-efficient |
| Classifiers.CatalogDisagreement | src/pages/Heatmap.jsx:31-40 | the catalog's Seminar Hall is efficient on the heatmap but needs review on its detail page |

## Left out

- Animations: GSAP timelines, hover effects and counter tweens are presentation timing, not logic.
- Charts: the Chart.js set-up of the analytics page calls a foreign library, and its decimal rule is float display.
- Number and date formatting: `toFixed` and locale date and time output are host-library formatting. The model keeps the numbers and the raw strings.
- Floating point: kWh figures are exact reals. IEEE rounding at the 0.4, 0.7, 1.5 and 2 thresholds is not modelled.
- Storage and JSON: `localStorage` is a map from key to entry, and an entry is either an encoded user or unparsable text. A `JSON.parse` that succeeds on something that is not a user is not modelled.
- Values.ParseDecimal: it stands for `isNaN`/`parseInt` on decimal integers only. Not modelled:
  - leading and trailing whitespace, a '+' sign, fractions, exponents and hex;
  - `parseInt` accepting a numeric prefix;
  - `isNaN("")` being false.
- Rules.Save: the two-second timer that clears the saved flag is asynchronous, so it is not modelled.
- `null` is not among the modelled values: no rules object holds it. A `null` parent would throw in the nested toggle and the hidden-waste switch, as `undefined` does, and spread to nothing in the nested change.
- Values.Prop: properties a primitive inherits from its prototype (other than a string's `length`) read as `undefined`. The page only reads properties that no prototype defines.
- Auth.Logout: a logout while already logged out is modelled as no change. React skips the state update and the storage effect when the value is unchanged.
- Routing, the layout, and the route guard are router glue. The sidebar's /rules and /computer-labs links have no matching route, so they fall through to the redirect.
- The single-lab page is not part of this model: it imports names the catalog does not export.
- Configuration's initial record is imported under a name the catalog does not export, so its handlers are modelled over an arbitrary record.
- The privacy and login pages are static rendering, and an animation wrapper around `login`.
- Catalog inconsistencies are not asserted:
  - Physics Lab is in both privacy lists.
  - The Library alert's room type says "Classroom".
  - Stored room statuses do not always agree with either classifier.
- The appliance `count` and `monitorsOn` fields exist in the source's room catalog but are dropped from the model, because no modelled page reads them.
- RoomDetail.Capitalise: upper-cases ASCII letters only. JavaScript's `toUpperCase` also maps non-ASCII letters, and some of them to several characters; the catalog's appliance keys are ASCII.
- Icon components beyond the icon choice are not modelled: the monitoring-method icon and the room page's icon map.

## Findings

| source | as written | input that shows it | evidently intended | confidence | as-written member | corrected member |
|---|---|---|---|---|---|---|
| src/pages/RoomDetail.jsx:155-174 | the appliance list takes each entry as a key and a value and tests the value for the badge; that value is the whole appliance object, which is always truthy, so every appliance reads "ON" | any room with a switched-off appliance, e.g. `{ status: false, wattage: 400 }` | print "ON" exactly when the appliance's own `status` flag is true | not executed | RoomDetail.OffApplianceShownOn | RoomDetail.ApplianceBadges |

=== FILE: alerts.dfy ===
/** The alerts page (src/pages/Alerts.jsx): the summary line, the empty
    state, and the severity styling. */
module Alerts {
  import opened Entities
  import MockData

  /** Reference total: the sum of every alert's estimated waste. */
  function TotalWaste(alerts: seq<Alert>): real {
    if |alerts| == 0 then 0.0 else alerts[0].estimatedWaste + TotalWaste(alerts[1..])
  }

  /** The total of a concatenation is the sum of the totals. */
  lemma {:induction false} TotalWasteAppend(a: seq<Alert>, b: seq<Alert>)
    ensures TotalWaste(a + b) == TotalWaste(a) + TotalWaste(b)
  {
    if |a| > 0 {
      assert (a + b)[1..] == a[1..] + b;
      TotalWasteAppend(a[1..], b);
    } else {
      assert a + b == b;
    }
  }

  /** The header's waste total, summed from zero over the alerts left to right. */
  method SumWaste(alerts: seq<Alert>) returns (total: real)
    ensures total == TotalWaste(alerts)
    ensures |alerts| == 0 ==> total == 0.0
    ensures (forall i :: 0 <= i < |alerts| ==> alerts[i].estimatedWaste >= 0.0) ==> total >= 0.0
  {
    total := 0.0;
    var i := 0;
    while i < |alerts|
      invariant 0 <= i <= |alerts|
      invariant total == TotalWaste(alerts[..i])
      invariant (forall j :: 0 <= j < |alerts| ==> alerts[j].estimatedWaste >= 0.0) ==> total >= 0.0
    {
      TotalWasteAppend(alerts[..i], [alerts[i]]);
      assert alerts[..i + 1] == alerts[..i] + [alerts[i]];
      total := total + alerts[i].estimatedWaste;
      i := i + 1;
    }
    assert alerts[..i] == alerts;
  }

  /** The header and the empty-state panel. */
  datatype Summary = Summary(activeAlerts: nat, totalWaste: real, noAlertsPanel: bool)

  function SummaryOf(alerts: seq<Alert>): (s: Summary)
    ensures s.activeAlerts == |alerts|
    ensures s.totalWaste == TotalWaste(alerts)
    ensures s.noAlertsPanel <==> |alerts| == 0
  {
    Summary(|alerts|, TotalWaste(alerts), |alerts| == 0)
  }

  /** On the catalog: four alerts wasting 11.9 kWh. */
  lemma CatalogSummary()
    ensures SummaryOf(MockData.Alerts) == Summary(4, 11.9, false)
  {
    var a := MockData.Alerts;
    assert a[3..][1..] == [];
    assert a[2..][1..] == a[3..];
    assert a[1..][1..] == a[2..];
  }

  datatype Style = Style(background: string, colour: string)

  const DefaultStyle := Style("#e2e8f0", "#475569")

  /** `getSeverityStyle` */
  function SeverityStyle(severity: string): (s: Style)
    ensures severity !in {"high", "medium", "low"} <==> s == DefaultStyle
  {
    match severity
    case "high" => Style("#fee2e2", "#991b1b")
    case "medium" => Style("#fef3c7", "#92400e")
    case "low" => Style("#dcfce7", "#166534")
    case _ => DefaultStyle
  }

  /** The three severities get three different styles. */
  lemma SeverityStylesDistinct(s: string, t: string)
    requires s in {"high", "medium", "low"} && t in {"high", "medium", "low"}
    ensures SeverityStyle(s) == SeverityStyle(t) <==> s == t
  {
  }

  datatype Icon = AlertTriangle | AlertCircle | Zap

  /** `getSeverityIcon`: high and low share the triangle, medium has the circle,
      anything else the default. */
  function SeverityIcon(severity: string): (icon: Icon)
    ensures icon == AlertTriangle <==> severity == "high" || severity == "low"
    ensures icon == AlertCircle <==> severity == "medium"
    ensures icon == Zap <==> severity !in {"high", "medium", "low"}
  {
    match severity
    case "high" => AlertTriangle
    case "medium" => AlertCircle
    case "low" => AlertTriangle
    case _ => Zap
  }

  /** `formatDuration` shows the stored duration text unchanged. */
  function FormatDuration(duration: string): (shown: string)
    ensures shown == duration
  {
    duration
  }
}

=== FILE: audit_logs.dfy ===
/** The audit-log table (src/pages/AuditLogs.jsx): confidence bands and bars,
    and the icon chosen for each action. */
module AuditLogs {
  import opened Wrappers
  import opened Entities
  import MockData

  datatype Band = Low | Medium | High

  /** `getConfidenceColor`: 95 and above is high, 85 up to 95 medium, and
      everything lower is low. */
  function ConfidenceBand(level: int): (b: Band)
    ensures b == High <==> level >= 95
    ensures b == Medium <==> 85 <= level < 95
    ensures b == Low <==> level < 85
  {
    if level >= 95 then High else if level >= 85 then Medium else Low
  }

  function BandRank(b: Band): nat {
    match b
    case Low => 0
    case Medium => 1
    case High => 2
  }

  /** A higher confidence never gets a lower band. */
  lemma BandMonotone(a: int, b: int)
    requires a <= b
    ensures BandRank(ConfidenceBand(a)) <= BandRank(ConfidenceBand(b))
  {
  }

  /** The bar colour, computed inline with its own copy of the thresholds. */
  function BarColour(level: int): string {
    if level >= 95 then "#10b981" else if level >= 85 then "#f59e0b" else "#ef4444"
  }

  function BandColour(b: Band): string {
    match b
    case High => "#10b981"
    case Medium => "#f59e0b"
    case Low => "#ef4444"
  }

  /** The bar colour always shows the band of `getConfidenceColor`. */
  lemma BarColourMatchesBand(level: int)
    ensures BarColour(level) == BandColour(ConfidenceBand(level))
    ensures forall b :: BarColour(level) == BandColour(b) <==> b == ConfidenceBand(level)
  {
  }

  /** The confidence cell: a bar for a number, a dash for `null`. */
  datatype ConfidenceCell = Bar(width: int, colour: string) | Dash

  function CellFor(confidence: Option<int>): (c: ConfidenceCell)
    ensures c.Dash? <==> confidence.None?
    ensures c.Bar? ==> c.width == confidence.value && c.colour == BandColour(ConfidenceBand(confidence.value))
  {
    match confidence
    case None => Dash
    case Some(level) =>
      BarColourMatchesBand(level);
      Bar(level, BarColour(level))
  }

  // ---------------------------------------------------------------------------
  // Action icons

  /** `s.includes(sub)`: `sub` starts at some position of `s`. */
  predicate Contains(s: string, sub: string)
    decreases |s|
  {
    |sub| <= |s| && (s[..|sub|] == sub || Contains(s[1..], sub))
  }

  datatype Icon = Activity | MessageSquare | FileText

  /** `getActionIcon`: the first of "reduction", "Alert", "verified",
      "activated" the action mentions picks the icon; none gives the default. */
  function ActionIcon(action: string): (icon: Icon)
    ensures icon == MessageSquare <==> !Contains(action, "reduction") && Contains(action, "Alert")
    ensures icon == FileText <==>
      !Contains(action, "reduction") && !Contains(action, "Alert") &&
      !Contains(action, "verified") && !Contains(action, "activated")
  {
    if Contains(action, "reduction") then Activity
    else if Contains(action, "Alert") then MessageSquare
    else if Contains(action, "verified") then Activity
    else if Contains(action, "activated") then Activity
    else FileText
  }

  /** One rendered row. */
  datatype Row = Row(room: string, action: string, icon: Icon, confidence: ConfidenceCell)

  /** The table and the entry count in its header. */
  datatype Table = Table(count: nat, rows: seq<Row>)

  function TableFor(logs: seq<AuditEntry>): (t: Table)
    ensures t.count == |t.rows| == |logs|
    ensures forall i :: 0 <= i < |logs| ==>
      t.rows[i].room == logs[i].room && t.rows[i].action == logs[i].action &&
      t.rows[i].icon == ActionIcon(logs[i].action) &&
      t.rows[i].confidence == CellFor(logs[i].confidence) &&
      (t.rows[i].confidence.Dash? <==> logs[i].confidence.None?)
  {
    var rows := seq(|logs|, i requires 0 <= i < |logs| =>
      Row(logs[i].room, logs[i].action, ActionIcon(logs[i].action), CellFor(logs[i].confidence)));
    Table(|logs|, rows)
  }

  /** On the catalog: six entries, and only the manual override has no bar. */
  lemma CatalogTable()
    ensures TableFor(MockData.AuditLogs).count == 6
    ensures forall i :: 0 <= i < 6 ==> (TableFor(MockData.AuditLogs).rows[i].confidence.Dash? <==> i == 4)
  {
  }
}

=== FILE: auth.dfy ===
/** The session (src/context/AuthContext.jsx): a user mirrored into browser
    storage under one key. The storage is a map from key to entry; JSON
    encoding is abstracted to "an encoded user" or "text that does not parse". */
module Auth {
  import opened Wrappers

  const StorageKey := "wattwatch_user"
  const AdminEmail := "admin@wattwatch.ai"
  const AdminPassword := "admin123"
  const AdminName := "Admin User"
  const InvalidCredentials := "Invalid credentials"
  const OutsideProvider := "useAuth must be used within AuthProvider"

  datatype User = User(email: string, name: string)

  /** A stored string: the encoding of a user, or text `JSON.parse` rejects
      (the empty string included, which the source treats as absent). */
  datatype Entry = Encoded(user: User) | Unparsable(raw: string)

  type Store = map<string, Entry>

  /** `getStoredUser`: null when the entry is missing or does not parse. */
  function StoredUser(store: Store): (u: Option<User>)
    ensures u.Some? <==> StorageKey in store && store[StorageKey].Encoded?
    ensures u.Some? ==> store[StorageKey] == Encoded(u.value)
  {
    if StorageKey in store then
      match store[StorageKey]
      case Encoded(user) => Some(user)
      case Unparsable(_) => None
    else None
  }

  /** The effect on `[user]`: write the user, or remove the entry when there
      is none. Other keys are untouched. */
  function Sync(user: Option<User>, store: Store): (s: Store)
    ensures s - {StorageKey} == store - {StorageKey}
    ensures user.Some? ==> StorageKey in s && s[StorageKey] == Encoded(user.value)
    ensures user.None? ==> StorageKey !in s
  {
    match user
    case Some(u) => store[StorageKey := Encoded(u)]
    case None => store - {StorageKey}
  }

  /** Writing a user and reading it back gives the user. */
  lemma StoredUserAfterSync(user: Option<User>, store: Store)
    ensures StoredUser(Sync(user, store)) == user
  {
  }

  datatype Session = Session(user: Option<User>, store: Store)

  /** The storage holds exactly the current user. */
  predicate Mirrors(s: Session) {
    && (s.user.Some? ==> StorageKey in s.store && s.store[StorageKey] == Encoded(s.user.value))
    && (s.user.None? ==> StorageKey !in s.store)
  }

  /** Mounting the provider: read the stored user, then run the effect once. */
  function Start(store: Store): (s: Session)
    ensures Mirrors(s)
    ensures s.user == StoredUser(store)
    ensures s.store - {StorageKey} == store - {StorageKey}
  {
    var user := StoredUser(store);
    Session(user, Sync(user, store))
  }

  datatype LoginResult = Success | Failure(error: string)

  datatype LoginStep = LoginStep(session: Session, result: LoginResult)

  predicate ValidCredentials(email: string, password: string) {
    email == AdminEmail && password == AdminPassword
  }

  /** `login(email, password)`: only the fixed admin credentials succeed and
      set the user (then the effect stores it); a failure changes nothing. */
  function Login(s: Session, email: string, password: string): (step: LoginStep)
    ensures step.result == Success <==> ValidCredentials(email, password)
    ensures step.result.Success? ==> step.session.user == Some(User(email, AdminName))
    ensures step.result.Failure? ==> step.session == s && step.result.error == InvalidCredentials
    ensures step.session.store - {StorageKey} == s.store - {StorageKey}
    ensures Mirrors(s) ==> Mirrors(step.session)
  {
    if email == AdminEmail && password == AdminPassword then
      var user := Some(User(email, AdminName));
      LoginStep(Session(user, Sync(user, s.store)), Success)
    else LoginStep(s, Failure(InvalidCredentials))
  }

  /** `logout()`: no user afterwards. Setting null when the user is already
      null changes no state, so the effect does not run again. */
  function Logout(s: Session): (t: Session)
    ensures t.user.None?
    ensures t.store - {StorageKey} == s.store - {StorageKey}
    ensures Mirrors(s) ==> Mirrors(t) && StorageKey !in t.store
  {
    if s.user.None? then s else Session(None, Sync(None, s.store))
  }

  lemma LogoutIdempotent(s: Session)
    ensures Logout(Logout(s)) == Logout(s)
  {
  }

  /** A session reached from any storage by any sequence of logins and
      logouts keeps the storage mirroring the user. */
  datatype Event = LoginEvent(email: string, password: string) | LogoutEvent

  function Run(s: Session, events: seq<Event>): Session
    decreases |events|
  {
    if |events| == 0 then s
    else
      var next := match events[0]
        case LoginEvent(e, p) => Login(s, e, p).session
        case LogoutEvent => Logout(s);
      Run(next, events[1..])
  }

  lemma {:induction false} RunMirrors(s: Session, events: seq<Event>)
    requires Mirrors(s)
    ensures Mirrors(Run(s, events))
    ensures StoredUser(Run(s, events).store) == Run(s, events).user
    decreases |events|
  {
    if |events| > 0 {
      var next := match events[0]
        case LoginEvent(e, p) => Login(s, e, p).session
        case LogoutEvent => Logout(s);
      RunMirrors(next, events[1..]);
    }
  }

  /** `useAuth()`: the provider's value, or the error thrown outside it. */
  function UseAuth<T>(context: Option<T>): (r: Result<T>)
    ensures r.Ok? <==> context.Some?
    ensures r.Ok? ==> r.value == context.value
    ensures r.Err? ==> r.error == OutsideProvider
  {
    match context
    case Some(c) => Ok(c)
    case None => Err(OutsideProvider)
  }
}

=== FILE: classifiers.dfy ===
/** The heatmap's occupancy-first classifier and the room-detail ratio
    classifier are different functions; these facts pin down where. */
module Classifiers {
  import opened Entities
  import MockData
  import Heatmap
  import RoomDetail

  function RoomWith(occupancy: int, usage: real, savings: real): Room {
    Room(0, "", "", "", "", occupancy, [], "", usage, savings)
  }

  /** The ratio classifier at its edges: 1.5 kWh used with 0.9 recoverable is
      exactly 0.4, which is waste; zero usage divides by 1 instead of failing. */
  lemma RatioEdges()
    ensures RoomDetail.Efficiency(RoomWith(3, 1.5, 0.9)) == 0.4
    ensures RoomDetail.RatioStatus(RoomDetail.Efficiency(RoomWith(3, 1.5, 0.9))) == Waste
    ensures RoomDetail.Efficiency(RoomWith(3, 0.0, 0.0)) == 1.0
    ensures RoomDetail.RatioStatus(RoomDetail.Efficiency(RoomWith(3, 0.0, 0.0))) == Efficient
  {
  }

  /** An empty room at 2 kWh with almost nothing to save is heatmap waste but
      ratio-efficient. */
  lemma EmptyRoomDisagreement()
    ensures Heatmap.HeatmapStatus(RoomWith(0, 2.0, 0.1)) == Waste
    ensures RoomDetail.RatioStatus(RoomDetail.Efficiency(RoomWith(0, 2.0, 0.1))) == Efficient
  {
  }

  /** On the catalog the Seminar Hall (1.5 kWh, 0.8 to save) is efficient on
      the heatmap but needs review on its detail page. */
  lemma CatalogDisagreement()
    ensures MockData.Rooms[2].name == "Seminar Hall"
    ensures Heatmap.HeatmapStatus(MockData.Rooms[2]) == Efficient
    ensures RoomDetail.RatioStatus(RoomDetail.Efficiency(MockData.Rooms[2])) == Review
  {
    var r := MockData.Rooms[2];
    assert RoomDetail.Efficiency(r) * 1.5 == 0.7;
  }
}

=== FILE: computer_labs.dfy ===
/** The computer-lab page (src/pages/ComputerLabs.jsx): which rooms are labs,
    the summary fold over them, and each lab's hidden-waste panel. */
module ComputerLabs {
  import opened Wrappers
  import opened Values
  import opened Entities
  import MockData

  /** The rooms whose type is "Computer Lab", in catalog order. */
  function Labs(rooms: seq<Room>): (labs: seq<Room>)
    ensures |labs| <= |rooms|
    ensures forall r :: r in labs <==> r in rooms && r.roomType == "Computer Lab"
  {
    if |rooms| == 0 then []
    else if rooms[0].roomType == "Computer Lab" then [rooms[0]] + Labs(rooms[1..])
    else Labs(rooms[1..])
  }

  /** The filter keeps order and multiplicity: filtering a concatenation is
      concatenating the filtered parts, and a single room is kept exactly when
      it is a lab. */
  lemma {:induction false} LabsAppend(a: seq<Room>, b: seq<Room>)
    ensures Labs(a + b) == Labs(a) + Labs(b)
    ensures |a| == 1 ==> Labs(a) == (if a[0].roomType == "Computer Lab" then a else [])
  {
    if |a| == 0 {
      assert a + b == b;
    } else {
      assert (a + b)[0] == a[0];
      assert (a + b)[1..] == a[1..] + b;
      LabsAppend(a[1..], b);
      if |a| == 1 {
        assert a[1..] == [];
      }
    }
  }

  datatype LabStats = LabStats(totalDesktops: int, desktopsOn: int, wasteLabs: nat)

  const Zero := LabStats(0, 0, 0)

  /** One step of the reducer: a lab without telemetry adds nothing; otherwise
      its desktop counts are added, and it counts as a waste lab when its
      stored status is "waste". */
  function Step(data: map<string, LabData>, acc: LabStats, lab: Room): LabStats {
    if lab.name !in data then acc
    else
      var d := data[lab.name];
      LabStats(acc.totalDesktops + d.totalDesktops,
               acc.desktopsOn + d.desktopsOn,
               acc.wasteLabs + (if lab.status == "waste" then 1 else 0))
  }

  /** The page's reducer over the labs: a left fold of `Step` from `acc`. */
  function Fold(data: map<string, LabData>, acc: LabStats, labs: seq<Room>): LabStats
    decreases |labs|
  {
    if |labs| == 0 then acc else Fold(data, Step(data, acc, labs[0]), labs[1..])
  }

  /** The reduce is compositional: folding a list with one more lab at the end
      is one more step on the fold of the prefix. */
  lemma {:induction false} FoldSnoc(data: map<string, LabData>, acc: LabStats, labs: seq<Room>, lab: Room)
    ensures Fold(data, acc, labs + [lab]) == Step(data, Fold(data, acc, labs), lab)
    decreases |labs|
  {
    if |labs| > 0 {
      assert (labs + [lab])[1..] == labs[1..] + [lab];
      FoldSnoc(data, Step(data, acc, labs[0]), labs[1..], lab);
    }
  }

  // Reference sums over the labs that have telemetry.

  function DesktopsOf(data: map<string, LabData>, labs: seq<Room>): int {
    if |labs| == 0 then 0
    else (if labs[0].name in data then data[labs[0].name].totalDesktops else 0) + DesktopsOf(data, labs[1..])
  }

  function DesktopsOnOf(data: map<string, LabData>, labs: seq<Room>): int {
    if |labs| == 0 then 0
    else (if labs[0].name in data then data[labs[0].name].desktopsOn else 0) + DesktopsOnOf(data, labs[1..])
  }

  function WasteLabsOf(data: map<string, LabData>, labs: seq<Room>): nat {
    if |labs| == 0 then 0
    else (if labs[0].name in data && labs[0].status == "waste" then 1 else 0) + WasteLabsOf(data, labs[1..])
  }

  /** The fold from any start adds exactly the reference sums to it. */
  lemma {:induction false} FoldIsSum(data: map<string, LabData>, acc: LabStats, labs: seq<Room>)
    ensures Fold(data, acc, labs) == LabStats(acc.totalDesktops + DesktopsOf(data, labs),
                                              acc.desktopsOn + DesktopsOnOf(data, labs),
                                              acc.wasteLabs + WasteLabsOf(data, labs))
    decreases |labs|
  {
    if |labs| > 0 {
      FoldIsSum(data, Step(data, acc, labs[0]), labs[1..]);
    }
  }

  /** No more waste labs are counted than there are labs. */
  lemma {:induction false} WasteLabsBounded(data: map<string, LabData>, labs: seq<Room>)
    ensures WasteLabsOf(data, labs) <= |labs|
  {
    if |labs| > 0 {
      WasteLabsBounded(data, labs[1..]);
    }
  }

  /** A lab without telemetry leaves the summary unchanged. */
  lemma LabWithoutDataAddsNothing(data: map<string, LabData>, labs: seq<Room>, lab: Room)
    requires lab.name !in data
    ensures Fold(data, Zero, labs + [lab]) == Fold(data, Zero, labs)
  {
    FoldSnoc(data, Zero, labs, lab);
  }

  /** The page's `labStats`, computed by a loop over the labs. */
  method ComputeLabStats(rooms: seq<Room>, data: map<string, LabData>) returns (stats: LabStats)
    ensures stats == Fold(data, Zero, Labs(rooms))
    ensures stats.totalDesktops == DesktopsOf(data, Labs(rooms))
    ensures stats.desktopsOn == DesktopsOnOf(data, Labs(rooms))
    ensures stats.wasteLabs == WasteLabsOf(data, Labs(rooms)) <= |Labs(rooms)|
  {
    var labs := Labs(rooms);
    stats := Zero;
    var i := 0;
    while i < |labs|
      invariant 0 <= i <= |labs|
      invariant stats == Fold(data, Zero, labs[..i])
    {
      FoldSnoc(data, Zero, labs[..i], labs[i]);
      assert labs[..i + 1] == labs[..i] + [labs[i]];
      stats := Step(data, stats, labs[i]);
      i := i + 1;
    }
    assert labs[..i] == labs;
    FoldIsSum(data, Zero, labs);
    WasteLabsBounded(data, labs);
  }

  /** Filtering a suffix: its first room is kept exactly when it is a lab. */
  lemma LabsOfSuffix(rooms: seq<Room>, k: int)
    requires 0 <= k < |rooms|
    ensures Labs(rooms[k..]) ==
      (if rooms[k].roomType == "Computer Lab" then [rooms[k]] else []) + Labs(rooms[k + 1..])
  {
    assert rooms[k..][0] == rooms[k];
    assert rooms[k..][1..] == rooms[k + 1..];
  }

  /** Filtering skips a stretch of rooms none of which is a lab. */
  lemma {:induction false} LabsSkip(rooms: seq<Room>, k: int, j: int)
    requires 0 <= k <= j <= |rooms|
    requires forall i :: k <= i < j ==> rooms[i].roomType != "Computer Lab"
    ensures Labs(rooms[k..]) == Labs(rooms[j..])
    decreases j - k
  {
    if k < j {
      LabsOfSuffix(rooms, k);
      LabsSkip(rooms, k + 1, j);
    }
  }

  /** A stretch holding exactly one lab, at position `at`, filters to that lab. */
  lemma OneLab(rooms: seq<Room>, k: int, at: int)
    requires 0 <= k <= at < |rooms|
    requires rooms[at].roomType == "Computer Lab"
    requires forall i :: k <= i < |rooms| && i != at ==> rooms[i].roomType != "Computer Lab"
    ensures Labs(rooms[k..]) == [rooms[at]]
  {
    LabsSkip(rooms, at + 1, |rooms|);
    assert rooms[|rooms|..] == [];
    LabsOfSuffix(rooms, at);
    LabsSkip(rooms, k, at);
  }

  /** In eleven rooms of which exactly the second and the eighth are labs, the
      filter keeps those two, in order. */
  lemma LabsOfCatalogShape(rooms: seq<Room>)
    requires |rooms| == 11
    requires rooms[1].roomType == "Computer Lab" && rooms[7].roomType == "Computer Lab"
    requires forall i :: 0 <= i < 11 && i != 1 && i != 7 ==> rooms[i].roomType != "Computer Lab"
    ensures Labs(rooms) == [rooms[1], rooms[7]]
  {
    OneLab(rooms, 2, 7);
    LabsOfSuffix(rooms, 1);
    LabsSkip(rooms, 0, 1);
    assert rooms[0..] == rooms;
  }

  /** The catalog's labs are rooms 2 and 8, in that order. */
  lemma CatalogLabs()
    ensures Labs(MockData.Rooms) == [MockData.Rooms[1], MockData.Rooms[7]]
  {
    LabsOfCatalogShape(MockData.Rooms);
  }

  lemma CatalogLabsFold()
    ensures Fold(MockData.ComputerLabData, Zero, [MockData.Rooms[1], MockData.Rooms[7]]) == LabStats(75, 55, 2)
  {
    var data := MockData.ComputerLabData;
    var a := MockData.Rooms[1];
    var b := MockData.Rooms[7];
    assert a.name in data && data[a.name] == LabData(40, 25, 5, 25, true, 3000, 12, 20) && a.status == "waste";
    assert b.name in data && data[b.name] == LabData(35, 30, 8, 30, true, 2640, 8, 22) && b.status == "waste";
    assert Step(data, Zero, a) == LabStats(40, 25, 1);
    FoldSnoc(data, Zero, [], a);
    FoldSnoc(data, Zero, [a], b);
    assert [] + [a] == [a];
    assert [a] + [b] == [a, b];
  }

  /** On the catalog: 75 desktops, 55 of them on, both labs wasting. */
  lemma CatalogLabStats()
    ensures Fold(MockData.ComputerLabData, Zero, Labs(MockData.Rooms)) == LabStats(75, 55, 2)
  {
    CatalogLabs();
    CatalogLabsFold();
  }

  // ---------------------------------------------------------------------------
  // Lab cards

  /** The hidden-waste panel: shown only when the lab's flag is set, and then it
      reports the CPUs running without a display. */
  function HiddenWastePanel(d: LabData): (panel: Option<int>)
    ensures panel.Some? <==> d.hiddenWaste
    ensures panel.Some? ==> panel.value + d.monitorsOn == d.cpusActive
  {
    if d.hiddenWaste then Some(d.cpusActive - d.monitorsOn) else None
  }

  /** The panel's text: the number of CPUs without a display, printed, then a fixed phrase. */
  function HiddenWasteText(d: LabData): (text: Option<string>)
    ensures text.Some? <==> d.hiddenWaste
    ensures text.Some? ==> exists n :: text.value == ToDecimal(n) + " CPUs running without displays"
                                       && ParseDecimal(ToDecimal(n)) == Some(d.cpusActive - d.monitorsOn)
  {
    match HiddenWastePanel(d)
    case None => None
    case Some(n) =>
      ParseToDecimal(n);
      Some(ToDecimal(n) + " CPUs running without displays")
  }

  datatype LabCard = LabCard(name: string, badge: string, data: LabData, hiddenWaste: Option<int>)

  /** A lab's card; a lab without telemetry renders nothing. */
  function LabCardFor(data: map<string, LabData>, lab: Room): (card: Option<LabCard>)
    ensures card.Some? <==> lab.name in data
    ensures card.Some? ==>
      && card.value.name == lab.name
      && card.value.data == data[lab.name]
      && (card.value.badge == "Waste Detected" <==> lab.status == "waste")
      && (lab.status != "waste" ==> card.value.badge == "Efficient")
      && card.value.hiddenWaste == HiddenWastePanel(data[lab.name])
      && (card.value.hiddenWaste.Some? <==> data[lab.name].hiddenWaste)
  {
    if lab.name !in data then None
    else
      var d := data[lab.name];
      Some(LabCard(lab.name, if lab.status == "waste" then "Waste Detected" else "Efficient", d, HiddenWastePanel(d)))
  }

  /** On the catalog the flag agrees with the counts: a lab is flagged exactly
      when more CPUs are active than monitors are on. */
  lemma CatalogFlagMatchesCounts()
    ensures forall name :: name in MockData.ComputerLabData ==>
      (MockData.ComputerLabData[name].hiddenWaste <==>
       MockData.ComputerLabData[name].cpusActive > MockData.ComputerLabData[name].monitorsOn)
  {
  }
}

=== FILE: configuration.dfy ===
/** The configuration page (src/pages/Configuration.jsx). Its initial record
    is imported from the catalog under a name the catalog does not define, so
    the handlers are modelled over an arbitrary record. */
module Configuration {
  import opened Wrappers
  import opened Values

  /** `handleToggle(key)`: the property becomes the boolean negation of its
      truthiness; nothing else changes. */
  function Toggle(c: Record, key: string): (d: Record)
    ensures d - {key} == c - {key}
    ensures key in d && d[key] == Bool(!Truthy(Get(c, key)))
  {
    c[key := Bool(!Truthy(Get(c, key)))]
  }

  /** Toggling a boolean property twice is the identity. */
  lemma ToggleTwice(c: Record, key: string)
    requires key in c && c[key].Bool?
    ensures Toggle(Toggle(c, key), key) == c
  {
    assert Toggle(Toggle(c, key), key).Keys == c.Keys;
  }

  /** Toggles of different properties commute. */
  lemma TogglesCommute(c: Record, k1: string, k2: string)
    requires k1 != k2
    ensures Toggle(Toggle(c, k1), k2) == Toggle(Toggle(c, k2), k1)
  {
  }

  const ThresholdKey := "emptyRoomThreshold"

  /** `handleThresholdChange(value)`: the parsed integer, which is NaN for text
      that is not a number; nothing else changes. */
  function ThresholdChange(c: Record, text: string): (d: Record)
    ensures d - {ThresholdKey} == c - {ThresholdKey}
    ensures ThresholdKey in d
    ensures d[ThresholdKey].Num? <==> ParseDecimal(text).Some?
    ensures d[ThresholdKey].Num? ==> Some(d[ThresholdKey].n) == ParseDecimal(text)
    ensures !d[ThresholdKey].Num? ==> d[ThresholdKey] == NaN
  {
    var v := match ParseDecimal(text) case Some(n) => Num(n) case None => NaN;
    c[ThresholdKey := v]
  }

  /** Setting the threshold from a printed integer stores that integer. */
  lemma ThresholdFromPrintedNumber(c: Record, n: int)
    ensures ThresholdChange(c, ToDecimal(n))[ThresholdKey] == Num(n)
  {
    ParseToDecimal(n);
  }

  /** The two night-mode time inputs. */
  datatype NightField = Start | End

  function FieldKey(f: NightField): string {
    match f
    case Start => "nightModeStart"
    case End => "nightModeEnd"
  }

  /** A night-mode time input stores its raw text in its own property. */
  function SetNightMode(c: Record, f: NightField, text: string): (d: Record)
    ensures d - {FieldKey(f)} == c - {FieldKey(f)}
    ensures Get(d, FieldKey(f)) == Str(text)
  {
    c[FieldKey(f) := Str(text)]
  }

  /** Setting the start and the end of night mode are independent. */
  lemma NightModeSettersCommute(c: Record, start: string, end: string)
    ensures SetNightMode(SetNightMode(c, Start, start), End, end) == SetNightMode(SetNightMode(c, End, end), Start, start)
    ensures Get(SetNightMode(SetNightMode(c, Start, start), End, end), "nightModeStart") == Str(start)
  {
  }
}

=== FILE: dashboard.dfy ===
/** The dashboard's room cards (src/pages/Dashboard.jsx): lookups keyed on the
    room's stored status, appliance icons, and the active-appliance list. */
module Dashboard {
  import opened Values
  import opened Entities

  const KnownStatuses: set<string> := {"efficient", "waste", "review"}

  /** `getStatusColor` */
  function StatusColour(status: string): (c: string)
    ensures status == "efficient" ==> c == "status-green"
    ensures status == "waste" ==> c == "status-red"
    ensures status == "review" ==> c == "status-yellow"
    ensures c == "status-grey" <==> status !in KnownStatuses
  {
    match status
    case "efficient" => "status-green"
    case "waste" => "status-red"
    case "review" => "status-yellow"
    case _ => "status-grey"
  }

  /** `getStatusLabel` */
  function StatusLabel(status: string): (l: string)
    ensures status == "efficient" ==> l == "Efficient"
    ensures status == "waste" ==> l == "Empty but Active"
    ensures status == "review" ==> l == "Needs Review"
    ensures l == "Unknown" <==> status !in KnownStatuses
  {
    match status
    case "efficient" => "Efficient"
    case "waste" => "Empty but Active"
    case "review" => "Needs Review"
    case _ => "Unknown"
  }

  /** Colour and label fall back together: a status gets the grey colour
      exactly when it gets the "Unknown" label, and the three known statuses
      get three different colours and labels. */
  lemma ColourAndLabelAgree(s: string, t: string)
    ensures StatusColour(s) == "status-grey" <==> StatusLabel(s) == "Unknown"
    ensures s in KnownStatuses && t in KnownStatuses ==>
      (StatusColour(s) == StatusColour(t) <==> s == t) &&
      (StatusLabel(s) == StatusLabel(t) <==> s == t)
  {
  }

  datatype Icon = Lightbulb | Monitor | Thermometer | Fan | Tv | Wind | Zap

  /** `getApplianceIcon` */
  function ApplianceIcon(key: string): (icon: Icon)
    ensures icon == Lightbulb <==> key == "lights"
    ensures icon == Monitor <==> key in {"projector", "desktops", "computers", "equipment"}
    ensures icon == Thermometer <==> key == "ac"
    ensures icon == Fan <==> key == "fans"
    ensures icon == Tv <==> key == "tv"
    ensures icon == Wind <==> key == "fume_hood"
    ensures icon == Zap <==>
      key !in {"lights", "projector", "desktops", "computers", "ac", "fans", "tv", "equipment", "fume_hood"}
  {
    match key
    case "lights" => Lightbulb
    case "projector" => Monitor
    case "desktops" => Monitor
    case "computers" => Monitor
    case "ac" => Thermometer
    case "fans" => Fan
    case "tv" => Tv
    case "equipment" => Monitor
    case "fume_hood" => Wind
    case _ => Zap
  }

  /** The appliances listed as active: those whose flag is on, in entry order. */
  function ActiveAppliances(apps: seq<(string, Appliance)>): (active: seq<(string, Appliance)>)
    ensures |active| <= |apps|
    ensures forall e :: e in active <==> e in apps && e.1.on
  {
    if |apps| == 0 then []
    else if apps[0].1.on then [apps[0]] + ActiveAppliances(apps[1..])
    else ActiveAppliances(apps[1..])
  }

  /** The list keeps entry order and multiplicity: the active appliances of a
      concatenation are those of each part in turn, and a single appliance is
      listed exactly when it is on. */
  lemma {:induction false} ActiveAppliancesAppend(a: seq<(string, Appliance)>, b: seq<(string, Appliance)>)
    ensures ActiveAppliances(a + b) == ActiveAppliances(a) + ActiveAppliances(b)
    ensures |a| == 1 ==> ActiveAppliances(a) == (if a[0].1.on then a else [])
  {
    if |a| == 0 {
      assert a + b == b;
    } else {
      assert (a + b)[0] == a[0];
      assert (a + b)[1..] == a[1..] + b;
      ActiveAppliancesAppend(a[1..], b);
      if |a| == 1 {
        assert a[1..] == [];
      }
    }
  }

  /** A room whose appliances are all on lists all of them, in order. */
  lemma {:induction false} AllOnListsAll(apps: seq<(string, Appliance)>)
    requires forall i :: 0 <= i < |apps| ==> apps[i].1.on
    ensures ActiveAppliances(apps) == apps
  {
    if |apps| > 0 {
      AllOnListsAll(apps[1..]);
    }
  }

  /** The occupancy line: a positive count of people, otherwise "Empty". */
  function OccupancyText(occupancy: int): (text: string)
    ensures text == "Empty" <==> occupancy <= 0
    ensures occupancy > 0 ==> text == ToDecimal(occupancy) + " people"
  {
    if occupancy > 0 then ToDecimal(occupancy) + " people" else "Empty"
  }
}

=== FILE: entities.dfy ===
/** The records of the dashboard's static catalog. */
module Entities {
  import opened Wrappers

  /** One appliance entry of a room: its on/off flag and its rated draw in W. */
  datatype Appliance = Appliance(on: bool, wattage: int)

  /** A monitored room. `appliances` keeps the insertion order of the source
      object, which is the order `Object.entries` lists them in for
      non-numeric keys, as all catalog keys are. Energy figures
      are kWh, held as exact rationals. */
  datatype Room = Room(
    id: int,
    name: string,
    roomType: string,
    monitoringMethod: string,
    status: string,
    occupancy: int,
    appliances: seq<(string, Appliance)>,
    monitoringType: string,
    energyUsageToday: real,
    potentialSavings: real)

  /** The three-way classification every view shows, however it derives it. */
  datatype Status = Efficient | Review | Waste

  datatype Kpis = Kpis(
    totalRooms: int,
    activeWasteCases: int,
    energySavedToday: real,
    estimatedCostSaved: real,
    co2Reduced: real)

  datatype Alert = Alert(
    id: int,
    roomId: int,
    roomName: string,
    roomType: string,
    wastingAppliance: string,
    duration: string,
    severity: string,
    estimatedWaste: real,
    timestamp: string,
    autoActionTaken: bool,
    actionDetails: string)

  /** Per-lab desktop telemetry, keyed by lab name in the catalog. */
  datatype LabData = LabData(
    totalDesktops: int,
    desktopsOn: int,
    monitorsOn: int,
    cpusActive: int,
    hiddenWaste: bool,
    estimatedWasteWatts: int,
    avgCpuUsage: int,
    idleDesktops: int)

  /** An audit log line; `confidence` is a percentage or `null`. */
  datatype AuditEntry = AuditEntry(
    id: int,
    timestamp: string,
    room: string,
    action: string,
    reason: string,
    confidence: Option<int>,
    simulated: bool)
}

=== FILE: heatmap.dfy ===
/** The heatmap view's occupancy-first classifier (src/pages/Heatmap.jsx).
    It is deliberately distinct from the room-detail ratio classifier. */
module Heatmap {
  import opened Entities
  import MockData

  /** An empty room drawing more than 1.5 kWh is waste; otherwise more than
      2 kWh of potential savings asks for review; anything else is efficient. */
  function HeatmapStatus(room: Room): (s: Status)
    ensures s == Waste <==> room.occupancy == 0 && room.energyUsageToday > 1.5
    ensures s == Review <==> !(room.occupancy == 0 && room.energyUsageToday > 1.5) && room.potentialSavings > 2.0
  {
    if room.occupancy == 0 && room.energyUsageToday > 1.5 then Waste
    else if room.potentialSavings > 2.0 then Review
    else Efficient
  }

  function Label(s: Status): string {
    match s
    case Waste => "High Waste"
    case Review => "Review Needed"
    case Efficient => "Efficient"
  }

  function Colour(s: Status): string {
    match s
    case Waste => "#ef4444"
    case Review => "#f59e0b"
    case Efficient => "#10b981"
  }

  /** What one heatmap cell shows. */
  datatype Cell = Cell(status: Status, caption: string, colour: string, emptyWarning: bool)

  /** A cell: label and colour come from the status alone, and the "Empty"
      warning shows for an empty room only when the room is classed waste. */
  function CellOf(room: Room): (c: Cell)
    ensures c.status == HeatmapStatus(room)
    ensures c.emptyWarning <==> room.occupancy == 0 && room.energyUsageToday > 1.5
    ensures c.emptyWarning <==> room.occupancy == 0 && c.status == Waste
    ensures c.caption == Label(c.status) && c.colour == Colour(c.status)
  {
    var s := HeatmapStatus(room);
    Cell(s, Label(s), Colour(s), room.occupancy == 0 && s == Waste)
  }

  /** The labels and colours of the three classes are pairwise different, so a
      cell's label (or its colour) alone tells its class. */
  lemma LabelsAndColoursDistinguish(s: Status, t: Status)
    ensures Label(s) == Label(t) <==> s == t
    ensures Colour(s) == Colour(t) <==> s == t
  {
  }

  /** The waste rule ignores potential savings. */
  lemma EmptyHungryRoomIsWaste(room: Room, savings: real)
    requires room.occupancy == 0 && room.energyUsageToday > 1.5
    ensures HeatmapStatus(room.(potentialSavings := savings)) == Waste
  {
  }

  /** Both thresholds are strict: 1.5 kWh in an empty room is not waste, and
      exactly 2 kWh of savings is not review. */
  lemma StrictBoundaries(room: Room)
    ensures room.energyUsageToday == 1.5 ==> HeatmapStatus(room) != Waste
    ensures room.potentialSavings == 2.0 ==> HeatmapStatus(room) != Review
  {
  }

  /** How many rooms the heatmap puts in class `s`. */
  function CountStatus(rooms: seq<Room>, s: Status): (n: nat)
    ensures n <= |rooms|
  {
    if |rooms| == 0 then 0
    else (if HeatmapStatus(rooms[0]) == s then 1 else 0) + CountStatus(rooms[1..], s)
  }

  /** Counting distributes over concatenation: the rooms of `a` and of `b`
      are counted independently. */
  lemma {:induction false} CountStatusAppend(a: seq<Room>, b: seq<Room>, s: Status)
    ensures CountStatus(a + b, s) == CountStatus(a, s) + CountStatus(b, s)
  {
    if |a| == 0 {
      assert a + b == b;
    } else {
      assert (a + b)[1..] == a[1..] + b;
      CountStatusAppend(a[1..], b, s);
    }
  }

  /** A single room counts once, in its own class only. */
  lemma CountStatusSingle(r: Room, s: Status)
    ensures CountStatus([r], s) == (if HeatmapStatus(r) == s then 1 else 0)
  {
  }

  datatype Stats = Stats(efficient: nat, review: nat, waste: nat)

  function StatsOf(rooms: seq<Room>): Stats {
    Stats(CountStatus(rooms, Efficient), CountStatus(rooms, Review), CountStatus(rooms, Waste))
  }

  /** The three summary counts partition the rooms. */
  lemma {:induction false} StatsPartitionRooms(rooms: seq<Room>)
    ensures StatsOf(rooms).efficient + StatsOf(rooms).review + StatsOf(rooms).waste == |rooms|
  {
    if |rooms| > 0 {
      StatsPartitionRooms(rooms[1..]);
    }
  }

  /** On the catalog: 8 efficient rooms, 1 to review, 2 wasting. */
  lemma CatalogStats()
    ensures StatsOf(MockData.Rooms) == Stats(8, 1, 2)
  {
  }
}

=== FILE: mock_data.dfy ===
/** The hard-coded catalog every page renders (src/data/mockData.js), as
    constants, with the consistency facts the pages rely on. */
module MockData {
  import opened Wrappers
  import opened Values
  import opened Entities

  const Rooms: seq<Room> := [
    Room(1, "Lecture Hall A", "Classroom", "Camera", "efficient", 85,
         [("lights", Appliance(true, 400)), ("projector", Appliance(true, 300)), ("ac", Appliance(true, 800))],
         "Edge AI", 2.8, 0.5),
    Room(2, "Computer Lab 101", "Computer Lab", "Smart Plug", "waste", 0,
         [("lights", Appliance(true, 300)), ("desktops", Appliance(true, 3000))],
         "Smart Plugs", 4.2, 3.5),
    Room(3, "Seminar Hall", "Classroom", "Camera", "review", 12,
         [("lights", Appliance(true, 250)), ("ac", Appliance(true, 600))],
         "Edge AI", 1.5, 0.8),
    Room(4, "Physics Lab", "Lab", "Camera", "efficient", 15,
         [("lights", Appliance(true, 350)), ("equipment", Appliance(true, 2000))],
         "Edge AI", 3.1, 1.2),
    Room(5, "Hostel Block A - Common Room", "Hostel", "Sensor", "waste", 0,
         [("lights", Appliance(true, 200)), ("tv", Appliance(true, 150)), ("fans", Appliance(true, 300))],
         "PIR Sensors", 2.1, 1.8),
    Room(6, "Admin Office", "Office", "Schedule", "efficient", 3,
         [("lights", Appliance(true, 200)), ("computer", Appliance(true, 500))],
         "Schedule-based", 1.2, 0.3),
    Room(7, "Library Reading Room", "Library", "Camera", "efficient", 45,
         [("lights", Appliance(true, 350)), ("ac", Appliance(true, 700))],
         "Edge AI", 2.9, 0.7),
    Room(8, "Computer Lab 202", "Computer Lab", "Smart Plug", "waste", 2,
         [("lights", Appliance(true, 300)), ("desktops", Appliance(true, 2640))],
         "Smart Plugs", 3.8, 3.2),
    Room(9, "Faculty Lounge", "Office", "Schedule", "review", 5,
         [("lights", Appliance(true, 200)), ("ac", Appliance(true, 500))],
         "Schedule-based", 1.8, 0.9),
    Room(10, "Chemistry Lab", "Lab", "Sensor", "efficient", 20,
         [("lights", Appliance(true, 400)), ("fume_hood", Appliance(true, 1500))],
         "PIR Sensors", 3.5, 1.0),
    Room(11, "Lecture Hall B", "Classroom", "Camera", "efficient", 72,
         [("lights", Appliance(true, 450)), ("projector", Appliance(true, 300)), ("ac", Appliance(true, 900))],
         "Edge AI", 3.2, 0.6)
  ]

  const DashboardKpis: Kpis := Kpis(11, 4, 42.5, 340.0, 28.5)

  const Alerts: seq<Alert> := [
    Alert(1, 2, "Computer Lab 101", "Computer Lab", "Desktops (25 CPUs active, only 5 monitors on)",
          "45 minutes", "high", 4.2, "2026-01-28T09:45:00", true, "Alert sent to lab administrator"),
    Alert(2, 5, "Hostel Block A - Common Room", "Hostel", "Lights, TV, Fans",
          "2 hours 15 minutes", "medium", 2.1, "2026-01-28T07:30:00", false, "Pending review"),
    Alert(3, 8, "Computer Lab 202", "Computer Lab", "Desktops (28 CPUs active, minimal usage)",
          "30 minutes", "high", 3.5, "2026-01-28T10:00:00", true, "Power reduction initiated via smart plugs"),
    Alert(4, 7, "Library Reading Room", "Classroom", "AC units (low occupancy)",
          "1 hour 30 minutes", "low", 2.1, "2026-01-28T08:45:00", false, "Scheduled for afternoon adjustment")
  ]

  const ComputerLabData: map<string, LabData> := map[
    "Computer Lab 101" := LabData(40, 25, 5, 25, true, 3000, 12, 20),
    "Computer Lab 202" := LabData(35, 30, 8, 30, true, 2640, 8, 22)
  ]

  const DefaultLabSettings: Record := map[
    "hiddenWasteThreshold" := Num(10),
    "cpuActivityMonitoring" := Bool(true),
    "monitorOffAlert" := Bool(true)
  ]

  const DefaultRules: Record := map[
    "emptyRoomThreshold" := Num(30),
    "lightOffDelay" := Num(15),
    "acOffDelay" := Num(20),
    "scheduleBuffer" := Num(10),
    "autoActionMode" := Str("auto"),
    "computerLabSettings" := Obj(DefaultLabSettings)
  ]

  const AuditLogs: seq<AuditEntry> := [
    AuditEntry(1, "2026-01-28T10:15:30", "Computer Lab 101", "Power reduction initiated",
               "Hidden waste detected", Some(98), true),
    AuditEntry(2, "2026-01-28T09:45:00", "Hostel Block A - Common Room", "Alert generated",
               "No occupancy for 2+ hours", Some(95), true),
    AuditEntry(3, "2026-01-28T10:00:15", "Computer Lab 202", "Auto-action applied",
               "Monitors OFF, CPUs active", Some(97), true),
    AuditEntry(4, "2026-01-28T08:30:45", "Lecture Hall A", "Efficiency verified",
               "Optimal usage detected", Some(100), true),
    AuditEntry(5, "2026-01-28T07:15:20", "Library Reading Room", "Manual override applied",
               "Special event in progress", None, true),
    AuditEntry(6, "2026-01-27T22:50:00", "Chemistry Lab", "Night mode activated",
               "After hours schedule", Some(100), true)
  ]

  /** The slider bounds the rules page draws for each numeric rule. */
  const SliderRanges: map<string, (int, int)> := map[
    "emptyRoomThreshold" := (5, 120),
    "lightOffDelay" := (5, 60),
    "acOffDelay" := (5, 90),
    "scheduleBuffer" := (0, 60)
  ]

  // ---------------------------------------------------------------------------
  // Consistency of the catalog

  /** Every room's recoverable energy is between zero and what it used. */
  lemma SavingsWithinUsage()
    ensures forall i :: 0 <= i < |Rooms| ==>
      0.0 <= Rooms[i].potentialSavings <= Rooms[i].energyUsageToday
  {
  }

  /** Room ids are 1..11 in order, hence pairwise distinct. */
  lemma RoomIdsDistinct()
    ensures forall i :: 0 <= i < |Rooms| ==> Rooms[i].id == i + 1
    ensures forall i, j :: 0 <= i < j < |Rooms| ==> Rooms[i].id != Rooms[j].id
  {
  }

  /** The dashboard's room KPI is the size of the room list. */
  lemma TotalRoomsMatchesCatalog()
    ensures DashboardKpis.totalRooms == |Rooms|
  {
  }

  /** Every alert points at a room of the catalog with the alert's room name. */
  lemma AlertsResolve()
    ensures forall k :: 0 <= k < |Alerts| ==>
      var i := Alerts[k].roomId - 1;
      0 <= i < |Rooms| && Rooms[i].id == Alerts[k].roomId && Rooms[i].name == Alerts[k].roomName
  {
  }

  /** The names of the rooms whose type is "Computer Lab". */
  function LabNames(rooms: seq<Room>): set<string> {
    set i | 0 <= i < |rooms| && rooms[i].roomType == "Computer Lab" :: rooms[i].name
  }

  /** The lab telemetry is keyed by exactly the computer-lab names. */
  lemma LabDataKeyedByLabs()
    ensures ComputerLabData.Keys == LabNames(Rooms)
  {
    var names := LabNames(Rooms);
    assert Rooms[1].name in names && Rooms[7].name in names;
    forall n | n in names ensures n in ComputerLabData {
      var i :| 0 <= i < |Rooms| && Rooms[i].roomType == "Computer Lab" && Rooms[i].name == n;
      assert i == 1 || i == 7;
    }
  }

  /** Each lab's counts are ordered: monitors on <= CPUs active <= desktops,
      and desktops on <= desktops. */
  lemma LabCountsOrdered()
    ensures forall name :: name in ComputerLabData ==>
      var d := ComputerLabData[name];
      0 <= d.monitorsOn <= d.cpusActive <= d.totalDesktops && 0 <= d.desktopsOn <= d.totalDesktops
  {
  }

  /** Each numeric default rule starts inside its slider's range. */
  lemma DefaultRulesWithinSliders()
    ensures forall key :: key in SliderRanges ==>
      key in DefaultRules && DefaultRules[key].Num? &&
      SliderRanges[key].0 <= DefaultRules[key].n <= SliderRanges[key].1
  {
  }
}

=== FILE: room_detail.dfy ===
/** The room-detail page (src/pages/RoomDetail.jsx): ratio-based efficiency,
    its badge, room lookup by route id, and the privacy cards. */
module RoomDetail {
  import opened Wrappers
  import opened Values
  import opened Entities
  import MockData

  /** One minus the share of today's usage that could be saved; a usage of
      exactly zero is replaced by 1 as the divisor. */
  function Efficiency(room: Room): (e: real)
    ensures room.energyUsageToday != 0.0 ==>
      e * room.energyUsageToday == room.energyUsageToday - room.potentialSavings
    ensures room.energyUsageToday == 0.0 ==> e == 1.0 - room.potentialSavings
  {
    var divisor := if room.energyUsageToday == 0.0 then 1.0 else room.energyUsageToday;
    1.0 - room.potentialSavings / divisor
  }

  /** The class the thresholds 0.7 and 0.4 (both strict) assign. */
  function RatioStatus(e: real): (s: Status)
    ensures s == Efficient <==> e > 0.7
    ensures s == Review <==> 0.4 < e <= 0.7
    ensures s == Waste <==> e <= 0.4
  {
    if e > 0.7 then Efficient else if e > 0.4 then Review else Waste
  }

  function Rank(s: Status): nat {
    match s
    case Waste => 0
    case Review => 1
    case Efficient => 2
  }

  /** A higher efficiency never gets a worse class. */
  lemma RatioStatusMonotone(e1: real, e2: real)
    requires e1 <= e2
    ensures Rank(RatioStatus(e1)) <= Rank(RatioStatus(e2))
  {
  }

  /** `getStatusColor`, with its own copy of the thresholds. */
  function StatusColour(e: real): string {
    if e > 0.7 then "#10b981" else if e > 0.4 then "#f59e0b" else "#ef4444"
  }

  /** The badge text, written inline with a second copy of the thresholds. */
  function BadgeText(e: real): string {
    if e > 0.7 then "Efficient" else if e > 0.4 then "Needs Review" else "High Waste"
  }

  function ColourOf(s: Status): string {
    match s
    case Efficient => "#10b981"
    case Review => "#f59e0b"
    case Waste => "#ef4444"
  }

  function TextOf(s: Status): string {
    match s
    case Efficient => "Efficient"
    case Review => "Needs Review"
    case Waste => "High Waste"
  }

  /** Badge colour and badge text always name the same class. */
  lemma BadgeAgrees(e: real)
    ensures StatusColour(e) == ColourOf(RatioStatus(e))
    ensures BadgeText(e) == TextOf(RatioStatus(e))
    ensures forall s :: StatusColour(e) == ColourOf(s) <==> BadgeText(e) == TextOf(s)
  {
  }

  /** With 0 <= savings <= usage and usage > 0, efficiency lies in [0, 1]. */
  lemma EfficiencyInUnitInterval(room: Room)
    requires room.energyUsageToday > 0.0
    requires 0.0 <= room.potentialSavings <= room.energyUsageToday
    ensures 0.0 <= Efficiency(room) <= 1.0
  {
    var e := Efficiency(room);
    assert e * room.energyUsageToday == room.energyUsageToday - room.potentialSavings;
  }

  /** Savings above a positive usage make efficiency negative; nothing clamps
      it, and it is still classed waste. */
  lemma OverSavingIsNegativeWaste(room: Room)
    requires room.energyUsageToday > 0.0
    requires room.potentialSavings > room.energyUsageToday
    ensures Efficiency(room) < 0.0
    ensures RatioStatus(Efficiency(room)) == Waste
  {
    var e := Efficiency(room);
    assert e * room.energyUsageToday < 0.0;
  }

  /** The lookup of the room named in the URL: the first room with the id. */
  function FindRoom(rooms: seq<Room>, id: Option<int>): (r: Option<Room>)
    ensures r.Some? <==> id.Some? && exists i :: 0 <= i < |rooms| && rooms[i].id == id.value
    ensures r.Some? ==> r.value in rooms && r.value.id == id.value
    ensures r.Some? ==> exists i :: 0 <= i < |rooms| && rooms[i] == r.value &&
                                    forall j :: 0 <= j < i ==> rooms[j].id != id.value
  {
    if id.None? || |rooms| == 0 then None
    else if rooms[0].id == id.value then Some(rooms[0])
    else
      var rest := FindRoom(rooms[1..], id);
      assert forall i :: 1 <= i < |rooms| ==> rooms[i] == rooms[1..][i - 1];
      if rest.Some? then
        var k :| 0 <= k < |rooms[1..]| && rooms[1..][k] == rest.value &&
                 forall j :: 0 <= j < k ==> rooms[1..][j].id != id.value;
        assert rooms[k + 1] == rest.value;
        assert forall j :: 0 <= j < k + 1 ==> rooms[j].id != id.value;
        rest
      else rest
  }

  /** With distinct ids, the room found is the unique room with that id. */
  lemma FindRoomUnique(rooms: seq<Room>, i: int)
    requires forall a, b :: 0 <= a < b < |rooms| ==> rooms[a].id != rooms[b].id
    requires 0 <= i < |rooms|
    ensures FindRoom(rooms, Some(rooms[i].id)) == Some(rooms[i])
  {
  }

  /** The page for a route parameter: the parsed id picks a room or the
      not-found state. */
  datatype Page = NotFound | Detail(room: Room)

  function PageFor(rooms: seq<Room>, param: string): (p: Page)
    ensures p.NotFound? <==> FindRoom(rooms, ParseDecimal(param)).None?
    ensures p.Detail? ==> p.room in rooms && ParseDecimal(param) == Some(p.room.id)
    ensures p.Detail? ==> Some(p.room) == FindRoom(rooms, ParseDecimal(param))
  {
    match FindRoom(rooms, ParseDecimal(param))
    case None => NotFound
    case Some(r) => Detail(r)
  }

  /** Every alert's "View Room" link opens the room the alert names. */
  lemma AlertLinksOpenTheirRoom(k: int)
    requires 0 <= k < |MockData.Alerts|
    ensures var p := PageFor(MockData.Rooms, ToDecimal(MockData.Alerts[k].roomId));
      p.Detail? && p.room.name == MockData.Alerts[k].roomName
  {
    MockData.AlertsResolve();
    MockData.RoomIdsDistinct();
    var a := MockData.Alerts[k];
    ParseToDecimal(a.roomId);
    FindRoomUnique(MockData.Rooms, a.roomId - 1);
  }

  /** On the catalog every room's efficiency lies in [0, 1]. */
  lemma CatalogEfficiencyInUnitInterval(i: int)
    requires 0 <= i < |MockData.Rooms|
    ensures 0.0 <= Efficiency(MockData.Rooms[i]) <= 1.0
  {
    MockData.SavingsWithinUsage();
    EfficiencyInUnitInterval(MockData.Rooms[i]);
  }

  /** The number of silhouettes in ghost view: the occupancy clamped to 1..5. */
  function Silhouettes(occupancy: int): (n: int)
    ensures 1 <= n <= 5
    ensures 1 <= occupancy <= 5 ==> n == occupancy
    ensures occupancy < 1 ==> n == 1
    ensures occupancy > 5 ==> n == 5
  {
    var capped := if occupancy < 5 then occupancy else 5;
    if capped < 1 then 1 else capped
  }

  /** The two monitoring cards; the page renders exactly one of them. */
  datatype MonitoringCard = GhostViewCard | NonCameraCard(methodName: string)

  function MonitoringCardFor(room: Room): (c: MonitoringCard)
    ensures c.GhostViewCard? <==> room.monitoringMethod == "Camera"
    ensures c.NonCameraCard? ==> c.methodName == room.monitoringMethod
  {
    if room.monitoringMethod == "Camera" then GhostViewCard else NonCameraCard(room.monitoringMethod)
  }

  // ---------------------------------------------------------------------------
  // Appliance ON/OFF badge. The page takes each appliance entry as a name and
  // a value, and tests the value itself; that value is the whole appliance
  // object, which is always truthy.

  /** The value the page tests: the appliance's entry object. */
  function EntryValue(a: Appliance): Value {
    Obj(map["status" := Bool(a.on), "wattage" := Num(a.wattage)])
  }

  /** The badge as the page computes it, from the truthiness of the entry. */
  function ApplianceBadgeAsWritten(a: Appliance): string {
    if Truthy(EntryValue(a)) then "ON" else "OFF"
  }

  /** Every appliance is shown as ON, so the shown badge is wrong exactly for
      the appliances that are off. */
  lemma OffApplianceShownOn(a: Appliance)
    ensures ApplianceBadgeAsWritten(a) == "ON"
    ensures ApplianceBadgeAsWritten(a) != ApplianceBadge(a) <==> !a.on
  {
  }

  /** The badge the page evidently means: the appliance's own flag. */
  function ApplianceBadge(a: Appliance): (text: string)
    ensures text == "ON" <==> a.on
    ensures text == "OFF" <==> !a.on
  {
    if a.on then "ON" else "OFF"
  }

  /** Upper case for an ASCII lower-case letter; any other character is kept. */
  function UpperChar(c: char): (u: char)
    ensures 'a' <= c <= 'z' ==> 'A' <= u <= 'Z' && u as int == c as int - 32
    ensures !('a' <= c <= 'z') ==> u == c
  {
    if 'a' <= c <= 'z' then (c as int - 32) as char else c
  }

  /** The shown appliance name: the key with its first character in upper case. */
  function Capitalise(name: string): (shown: string)
    ensures |shown| == |name|
    ensures |name| > 0 ==> shown[0] == UpperChar(name[0]) && shown[1..] == name[1..]
  {
    if |name| == 0 then "" else [UpperChar(name[0])] + name[1..]
  }

  /** Capitalising a shown name again changes nothing. */
  lemma CapitaliseIdempotent(name: string)
    ensures Capitalise(Capitalise(name)) == Capitalise(name)
  {
  }

  /** The appliance list as the page renders it: capitalised names, in entry
      order, and every badge reads ON. */
  function ApplianceBadgesAsWritten(apps: seq<(string, Appliance)>): (badges: seq<(string, string)>)
    ensures |badges| == |apps|
    ensures forall i :: 0 <= i < |apps| ==> badges[i].0 == Capitalise(apps[i].0) && badges[i].1 == "ON"
  {
    seq(|apps|, i requires 0 <= i < |apps| => (Capitalise(apps[i].0), ApplianceBadgeAsWritten(apps[i].1)))
  }

  /** The corrected appliance list: capitalised names, in entry order, each
      badge showing the appliance's own state. */
  function ApplianceBadges(apps: seq<(string, Appliance)>): (badges: seq<(string, string)>)
    ensures |badges| == |apps|
    ensures forall i :: 0 <= i < |apps| ==>
      badges[i].0 == Capitalise(apps[i].0) && (badges[i].1 == "ON" <==> apps[i].1.on)
  {
    seq(|apps|, i requires 0 <= i < |apps| => (Capitalise(apps[i].0), ApplianceBadge(apps[i].1)))
  }

  /** The two lists differ exactly when some appliance is off. */
  lemma CorrectionMatters(apps: seq<(string, Appliance)>)
    ensures ApplianceBadgesAsWritten(apps) != ApplianceBadges(apps) <==> exists i :: 0 <= i < |apps| && !apps[i].1.on
  {
    var w := ApplianceBadgesAsWritten(apps);
    var c := ApplianceBadges(apps);
    if exists i :: 0 <= i < |apps| && !apps[i].1.on {
      var i :| 0 <= i < |apps| && !apps[i].1.on;
      assert w[i] != c[i];
    } else {
      assert forall i :: 0 <= i < |apps| ==> w[i] == c[i];
    }
  }
}

=== FILE: rules.dfy ===
/** The rules editor (src/pages/Rules.jsx): immutable updates of a JS rules
    object plus a "saved" flag. The save timer that clears the flag after two
    seconds is not part of this model. */
module Rules {
  import opened Wrappers
  import opened Values
  import MockData

  /** The page's state: the rules object and whether it was just saved. */
  datatype Page = Page(rules: Record, saved: bool)

  const Initial := Page(MockData.DefaultRules, false)

  /** What a handler receives: a number (from a switch) or text (from a
      slider or a mode switch). */
  datatype Input = NumberInput(n: int) | TextInput(s: string)

  /** A handler's input: numeric text becomes its integer, other text is kept. */
  function Coerce(input: Input): (v: Value)
    ensures input.NumberInput? ==> v == Num(input.n)
    ensures input.TextInput? ==>
      (v.Num? <==> ParseDecimal(input.s).Some?) &&
      (v.Num? ==> Some(v.n) == ParseDecimal(input.s)) &&
      (!v.Num? ==> v == Str(input.s))
  {
    match input
    case NumberInput(n) => Num(n)
    case TextInput(s) =>
      match ParseDecimal(s)
      case Some(n) => Num(n)
      case None => Str(s)
  }

  /** `handleToggle(key)`: a boolean property is negated, any other value is
      written back as it was (an absent one as `undefined`). */
  function Toggle(p: Page, key: string): (q: Page)
    ensures !q.saved
    ensures key in q.rules
    ensures q.rules - {key} == p.rules - {key}
    ensures Get(p.rules, key).Bool? ==> q.rules[key] == Bool(!Get(p.rules, key).b)
    ensures !Get(p.rules, key).Bool? ==> q.rules[key] == Get(p.rules, key)
  {
    var current := Get(p.rules, key);
    var toggled := if current.Bool? then Bool(!current.b) else current;
    Page(p.rules[key := toggled], false)
  }

  /** Toggling a present property twice restores the rules. */
  lemma ToggleTwice(p: Page, key: string)
    requires key in p.rules
    ensures Toggle(Toggle(p, key), key).rules == p.rules
  {
    var q := Toggle(Toggle(p, key), key);
    assert q.rules.Keys == p.rules.Keys;
  }

  /** A non-boolean present property makes the toggle a no-op on the rules. */
  lemma ToggleNonBoolean(p: Page, key: string)
    requires key in p.rules && !p.rules[key].Bool?
    ensures Toggle(p, key).rules == p.rules
  {
    assert Toggle(p, key).rules.Keys == p.rules.Keys;
  }

  /** `handleNestedToggle(parent, key)`: the parent is replaced by a spread
      copy of itself in which `key` holds the negated truthiness of its old
      value. None where the source throws: reading `key` from an `undefined`
      parent. */
  function NestedToggle(p: Page, parent: string, key: string): (q: Option<Page>)
    ensures q.Some? <==> !Get(p.rules, parent).Undefined?
    ensures q.Some? ==>
      var before := Get(p.rules, parent);
      && !q.value.saved
      && q.value.rules - {parent} == p.rules - {parent}
      && parent in q.value.rules && q.value.rules[parent].Obj?
      && q.value.rules[parent].fields - {key} == Spread(before) - {key}
      && q.value.rules[parent].fields.Keys == Spread(before).Keys + {key}
      && q.value.rules[parent].fields[key] == Bool(!Truthy(Prop(before, key).value))
    ensures Get(p.rules, parent).Obj? ==>
      var inner := Get(p.rules, parent).fields;
      q.Some? && q.value.rules[parent].fields == inner[key := Bool(!Truthy(Get(inner, key)))]
  {
    var before := Get(p.rules, parent);
    if before.Undefined? then None
    else
      var inner := Spread(before)[key := Bool(!Truthy(Prop(before, key).value))];
      Some(Page(p.rules[parent := Obj(inner)], false))
  }

  /** Toggling the same boolean nested property twice restores the rules. */
  lemma NestedToggleTwice(p: Page, parent: string, key: string)
    requires Get(p.rules, parent).Obj?
    requires Get(Get(p.rules, parent).fields, key).Bool?
    ensures NestedToggle(p, parent, key).Some?
    ensures NestedToggle(NestedToggle(p, parent, key).value, parent, key).Some?
    ensures NestedToggle(NestedToggle(p, parent, key).value, parent, key).value.rules == p.rules
  {
    var inner := p.rules[parent].fields;
    var q := NestedToggle(p, parent, key).value;
    var r := NestedToggle(q, parent, key).value;
    assert r.rules[parent].fields == inner;
    assert r.rules == p.rules;
  }

  /** `handleChange(key, value)`: sets one property to the coerced input. */
  function Change(p: Page, key: string, input: Input): (q: Page)
    ensures !q.saved
    ensures q.rules - {key} == p.rules - {key}
    ensures key in q.rules && q.rules[key] == Coerce(input)
  {
    Page(p.rules[key := Coerce(input)], false)
  }

  /** `handleNestedChange(parent, key, value)`: the parent is replaced by a
      spread copy of itself in which `key` holds the coerced input. Spreading
      never throws, so neither does this handler: a parent that held no object
      becomes one. */
  function NestedChange(p: Page, parent: string, key: string, input: Input): (q: Page)
    ensures !q.saved
    ensures q.rules - {parent} == p.rules - {parent}
    ensures parent in q.rules && q.rules[parent].Obj?
    ensures q.rules[parent].fields - {key} == Spread(Get(p.rules, parent)) - {key}
    ensures key in q.rules[parent].fields && q.rules[parent].fields[key] == Coerce(input)
    ensures Get(p.rules, parent).Obj? ==>
      q.rules[parent].fields - {key} == Get(p.rules, parent).fields - {key}
    ensures (Get(p.rules, parent).Undefined? || Get(p.rules, parent).Bool? ||
             Get(p.rules, parent).Num? || Get(p.rules, parent).NaN?) ==>
      q.rules[parent].fields == map[key := Coerce(input)]
  {
    var inner := Spread(Get(p.rules, parent));
    Page(p.rules[parent := Obj(inner[key := Coerce(input)])], false)
  }

  /** `handleSave`: raises the saved flag and nothing else. */
  function Save(p: Page): (q: Page)
    ensures q.saved && q.rules == p.rules
  {
    p.(saved := true)
  }

  /** `handleReset`: back to the catalog defaults, not saved. */
  function Reset(p: Page): (q: Page)
    ensures q.rules == MockData.DefaultRules && !q.saved
  {
    Page(MockData.DefaultRules, false)
  }

  lemma ResetIdempotent(p: Page)
    ensures Reset(Reset(p)) == Reset(p) == Initial
  {
  }

  // ---------------------------------------------------------------------------
  // The controls the page wires to these handlers.

  const LabSettings := "computerLabSettings"
  const Threshold := "hiddenWasteThreshold"

  /** The hidden-waste switch is drawn active when the threshold read from
      the lab settings compares greater than zero. */
  predicate HiddenWasteActive(p: Page) {
    var t := Prop(Get(p.rules, LabSettings), Threshold);
    t.Some? && Positive(t.value)
  }

  /** Pressing the hidden-waste switch: a positive threshold becomes 0, any
      other becomes 10. None where the page throws: the switch reads the
      threshold out of the settings, and settings that are `undefined` have
      none to read. */
  function HiddenWasteSwitch(p: Page): (q: Option<Page>)
    ensures q.Some? <==> !Get(p.rules, LabSettings).Undefined?
    ensures q.Some? ==> !q.value.saved
    ensures q.Some? ==> HiddenWasteActive(q.value) != HiddenWasteActive(p)
    ensures q.Some? ==>
      var s := Get(q.value.rules, LabSettings);
      s.Obj? && Get(s.fields, Threshold) == Num(if HiddenWasteActive(p) then 0 else 10)
    ensures q.Some? ==>
      q.value.rules - {LabSettings} == p.rules - {LabSettings} &&
      Get(q.value.rules, LabSettings).fields - {Threshold} == Spread(Get(p.rules, LabSettings)) - {Threshold}
  {
    if Get(p.rules, LabSettings).Undefined? then None
    else Some(NestedChange(p, LabSettings, Threshold, NumberInput(if HiddenWasteActive(p) then 0 else 10)))
  }

  /** Two presses restore "active at 10", whatever positive threshold there was. */
  lemma HiddenWasteSwitchTwice(p: Page)
    requires HiddenWasteActive(p)
    ensures HiddenWasteSwitch(p).Some?
    ensures HiddenWasteSwitch(HiddenWasteSwitch(p).value).Some?
    ensures var q := HiddenWasteSwitch(HiddenWasteSwitch(p).value).value;
      HiddenWasteActive(q) && Get(q.rules[LabSettings].fields, Threshold) == Num(10)
  {
  }

  /** The auto-action switch is drawn on when the mode is "auto". */
  predicate AutoMode(p: Page) {
    Get(p.rules, "autoActionMode") == Str("auto")
  }

  /** Pressing the auto-action switch: "auto" becomes "manual", anything else
      becomes "auto". */
  function AutoModeSwitch(p: Page): (q: Page)
    ensures !q.saved
    ensures AutoMode(q) <==> !AutoMode(p)
    ensures Get(q.rules, "autoActionMode") == (if AutoMode(p) then Str("manual") else Str("auto"))
    ensures q.rules - {"autoActionMode"} == p.rules - {"autoActionMode"}
  {
    ParseRejectsWord("manual");
    ParseRejectsWord("auto");
    Change(p, "autoActionMode", TextInput(if AutoMode(p) then "manual" else "auto"))
  }

  /** From either setting of the mode, two presses restore the rules. */
  lemma AutoModeSwitchTwice(p: Page)
    requires AutoMode(p) || Get(p.rules, "autoActionMode") == Str("manual")
    ensures AutoModeSwitch(AutoModeSwitch(p)).rules == p.rules
  {
    var q := AutoModeSwitch(AutoModeSwitch(p));
    assert q.rules.Keys == p.rules.Keys;
  }

  // ---------------------------------------------------------------------------
  // The edits reachable from the page, and what they preserve.

  /** Every control of the page. Sliders deliver text; the browser's range
      input is not modelled, so any text may arrive. */
  datatype Action =
    | Slider(key: string, text: string)
    | AutoModePress
    | HiddenWastePress
    | CpuMonitoringPress
    | MonitorOffAlertPress
    | SavePress
    | ResetPress

  const SliderKeys: set<string> := {"emptyRoomThreshold", "lightOffDelay", "acOffDelay", "scheduleBuffer"}

  function Apply(p: Page, a: Action): Page {
    match a
    case Slider(key, text) => Change(p, key, TextInput(text))
    case AutoModePress => AutoModeSwitch(p)
    case HiddenWastePress => HiddenWasteSwitch(p).GetOr(p)
    case CpuMonitoringPress => NestedToggle(p, LabSettings, "cpuActivityMonitoring").GetOr(p)
    case MonitorOffAlertPress => NestedToggle(p, LabSettings, "monitorOffAlert").GetOr(p)
    case SavePress => Save(p)
    case ResetPress => Reset(p)
  }

  /** The shape the defaults have and the page's controls keep: the lab
      settings are an object with a numeric threshold and two boolean flags,
      and the mode is "auto" or "manual". */
  predicate WellShaped(p: Page) {
    && (Get(p.rules, "autoActionMode") == Str("auto") || Get(p.rules, "autoActionMode") == Str("manual"))
    && Get(p.rules, LabSettings).Obj?
    && var s := Get(p.rules, LabSettings).fields;
    && Get(s, Threshold).Num?
    && Get(s, "cpuActivityMonitoring").Bool?
    && Get(s, "monitorOffAlert").Bool?
  }

  /** The default rules are well shaped. */
  lemma InitialWellShaped()
    ensures WellShaped(Initial)
  {
  }

  /** Every control keeps the page well shaped, and only saving raises the flag. */
  lemma ActionsPreserveShape(p: Page, a: Action)
    requires WellShaped(p)
    requires a.Slider? ==> a.key in SliderKeys
    ensures WellShaped(Apply(p, a))
    ensures a.SavePress? <==> Apply(p, a).saved
  {
    InitialWellShaped();
  }
}

=== FILE: values.dfy ===
/** The slice of JavaScript values the dashboard's editable records hold, and
    the number parsing its input handlers rely on.

    The rule editors keep their state in plain JS objects and update them with
    computed keys (`{ ...prev, [key]: v }`), so a record is modelled as a map
    from property name to value. Reading an absent property gives `undefined`. */
module Values {
  import opened Wrappers

  datatype Value =
    | Undefined
    | Bool(b: bool)
    | Num(n: int)
    | NaN
    | Str(s: string)
    | Obj(fields: Record)

  type Record = map<string, Value>

  /** `record[key]`: absent properties read as `undefined`. */
  function Get(record: Record, key: string): (v: Value)
    ensures key !in record ==> v == Undefined
    ensures key in record ==> v == record[key]
  {
    if key in record then record[key] else Undefined
  }

  /** JavaScript truthiness: what `!v` negates. */
  predicate Truthy(v: Value) {
    match v
    case Undefined => false
    case Bool(b) => b
    case Num(n) => n != 0
    case NaN => false
    case Str(s) => s != ""
    case Obj(_) => true
  }

  // ---------------------------------------------------------------------------
  // Decimal text. `parseInt` and `isNaN` on the strings the inputs deliver are
  // modelled by one partial parse: an optional '-' followed by one or more
  // ASCII digits is a number, anything else is not.

  predicate IsDigit(c: char) {
    '0' <= c <= '9'
  }

  predicate AllDigits(s: string) {
    forall i :: 0 <= i < |s| ==> IsDigit(s[i])
  }

  function DigitValue(c: char): (d: nat)
    requires IsDigit(c)
    ensures d < 10
  {
    (c as int) - ('0' as int)
  }

  function DigitChar(d: nat): (c: char)
    requires d < 10
    ensures IsDigit(c) && DigitValue(c) == d
  {
    (('0' as int) + d) as char
  }

  /** The number a run of digits denotes, most significant digit first. */
  function DigitsValue(s: string): (n: nat)
    requires AllDigits(s)
  {
    if |s| == 0 then 0
    else DigitsValue(s[..|s| - 1]) * 10 + DigitValue(s[|s| - 1])
  }

  /** The shortest digit string for `n`. */
  function NatToDigits(n: nat): (s: string)
    ensures |s| > 0 && AllDigits(s)
    ensures |s| > 1 ==> s[0] != '0'
  {
    if n < 10 then [DigitChar(n)]
    else NatToDigits(n / 10) + [DigitChar(n % 10)]
  }

  /** How the dashboard prints an integer in a template string. */
  function ToDecimal(n: int): (s: string)
    ensures |s| > 0
    ensures n >= 0 <==> s[0] != '-'
  {
    if n < 0 then "-" + NatToDigits(-n) else NatToDigits(n)
  }

  /** The integer that numeric text denotes, or None for text that is not a
      number; idealised to plain decimal text. */
  function ParseDecimal(s: string): (r: Option<int>)
    ensures r.Some? <==> (|s| > 0 && s[0] == '-' && |s| > 1 && AllDigits(s[1..])) || (|s| > 0 && AllDigits(s))
  {
    if |s| > 0 && s[0] == '-' then
      (if |s| > 1 && AllDigits(s[1..]) then Some(-(DigitsValue(s[1..]) as int)) else None)
    else if |s| > 0 && AllDigits(s) then Some(DigitsValue(s))
    else None
  }

  lemma {:induction false} DigitsRoundTrip(n: nat)
    ensures DigitsValue(NatToDigits(n)) == n
  {
    if n >= 10 {
      var prefix := NatToDigits(n / 10);
      var s := prefix + [DigitChar(n % 10)];
      assert s[..|s| - 1] == prefix;
      DigitsRoundTrip(n / 10);
    }
  }

  /** Printing an integer and parsing the text back gives the integer. */
  lemma ParseToDecimal(n: int)
    ensures ParseDecimal(ToDecimal(n)) == Some(n)
  {
    if n < 0 {
      ParseNegative(-n);
    } else {
      ParseNatural(n);
    }
  }

  lemma ParseNatural(n: nat)
    ensures ParseDecimal(NatToDigits(n)) == Some(n)
  {
    var s := NatToDigits(n);
    assert s[0] != '-' by { assert IsDigit(s[0]); }
    DigitsRoundTrip(n);
  }

  lemma ParseNegative(m: nat)
    requires m > 0
    ensures ParseDecimal(ToDecimal(-(m as int))) == Some(-(m as int))
  {
    var digits := NatToDigits(m);
    var s := ToDecimal(-(m as int));
    assert s == "-" + digits;
    assert s[1..] == digits;
    DigitsRoundTrip(m);
  }

  /** Distinct integers print as distinct text. */
  lemma ToDecimalInjective()
    ensures forall i, j :: ToDecimal(i) == ToDecimal(j) ==> i == j
  {
    forall i, j | ToDecimal(i) == ToDecimal(j)
      ensures i == j
    {
      ParseToDecimal(i);
      ParseToDecimal(j);
    }
  }

  // ---------------------------------------------------------------------------
  // Property access on arbitrary values, as the nested handlers use it.

  /** The own properties `{ ...v }` copies: an object's fields, a string's
      characters under their index keys, nothing from other primitives or
      from `undefined`. */
  function Spread(v: Value): (r: Record)
    ensures v.Obj? ==> r == v.fields
    ensures v.Str? ==> r.Keys == set i | 0 <= i < |v.s| :: ToDecimal(i)
    ensures v.Str? ==> forall i :: 0 <= i < |v.s| ==> r[ToDecimal(i)] == Str([v.s[i]])
    ensures !v.Obj? && !v.Str? ==> r == map[]
  {
    match v
    case Obj(fields) => fields
    case Str(s) =>
      ToDecimalInjective();
      map i | 0 <= i < |s| :: ToDecimal(i) := Str([s[i]])
    case _ => map[]
  }

  /** `v[key]`: None where JavaScript throws (reading from `undefined`). A
      string answers its `length` and its index keys; other primitives answer
      `undefined`. Inherited properties are not modelled. */
  function Prop(v: Value, key: string): (r: Option<Value>)
    ensures r.None? <==> v.Undefined?
    ensures v.Obj? ==> r == Some(Get(v.fields, key))
    ensures v.Str? && key == "length" ==> r == Some(Num(|v.s|))
    ensures (v.Bool? || v.Num? || v.NaN?) ==> r == Some(Undefined)
  {
    match v
    case Undefined => None
    case Obj(fields) => Some(Get(fields, key))
    case Str(s) => Some(if key == "length" then Num(|s|) else Get(Spread(v), key))
    case _ => Some(Undefined)
  }

  /** Reading a property agrees with reading it from the spread copy, except
      for a string's `length`, which is not an own enumerable property. */
  lemma PropAgreesWithSpread(v: Value, key: string)
    requires !v.Undefined?
    requires v.Str? ==> key != "length"
    ensures Prop(v, key) == Some(Get(Spread(v), key))
  {
  }

  /** JavaScript's `v > 0`: booleans count as 0 or 1, text through the
      idealised decimal parse, everything else compares false. */
  predicate Positive(v: Value) {
    match v
    case Bool(b) => b
    case Num(n) => n > 0
    case Str(s) => ParseDecimal(s).Some? && ParseDecimal(s).value > 0
    case _ => false
  }

  /** Text whose first character is a letter is never a number. */
  lemma ParseRejectsWord(s: string)
    requires |s| > 0 && s[0] != '-' && !IsDigit(s[0])
    ensures ParseDecimal(s) == None
  {
    assert !AllDigits(s) by { assert !IsDigit(s[0]); }
  }
}

=== FILE: wrappers.dfy ===
/** Optional values and results with an error, used wherever the dashboard
    returns `null`, `undefined` or throws. */
module Wrappers {

  /** `null` / `undefined` versus a present value. */
  datatype Option<+T> = None | Some(value: T) {

    /** The value, or `default` when there is none. */
    function GetOr(default: T): T {
      match this
      case Some(v) => v
      case None => default
    }
  }

  /** A value, or the message of the error the source would throw. */
  datatype Result<+T> = Ok(value: T) | Err(error: string)
}
